=== FILE: README.md ===
# crud-platform backend: a Dafny model of the model-driven CRUD core

The server lets an administrator publish a *model definition* at runtime: a
name, typed fields, per-role permissions and an optional owner column.
Publishing writes the definition to `<name>.json` in a models directory,
creates a table for it, and mounts a generated router at
`/api/<lower-cased name>`. That router offers create, list, read, update and
delete, each behind token authentication and the role check. Create and
update also validate the payload, and update and delete apply a row-level
ownership check. At boot
the server reloads every definition, creates any missing table, and mounts
every router. Administrators can delete a model, which drops its table and
removes its file. Accounts come from a registration and login controller,
which also holds the handlers of a password-reset token cycle. Only register
and login are wired to routes (`crud-platform-backend/src/routes/auth.routes.ts`);
the forgot, verify and reset handlers are modelled as the controller defines
them, but no route serves them.

The model is functional. A request is a pure transition over a store, which
holds three parts:

- the database: named tables with columns, rows keyed by the generated id,
  and the next id;
- the models directory: file name to parsed definition or unreadable file;
- the list of mounted routers, in mount order.

These are passed in as parameters:

- token verification;
- JavaScript's `Number()` and `parseFloat()` NaN tests;
- password hashing and comparison;
- token signing and random tokens;
- the clock;
- the directory listing order: any sequence naming each file of the
  directory exactly once.

Modules, following the source files:

| module | file | models |
|---|---|---|
| `Common`, `Definitions` | common.dfy, definitions.dfy | options, results, ASCII lower-casing; definitions, payload values, principals, responses |
| `Validation` | validation.dfy | `validateData` |
| `Policy` | policy.dfy | the role middleware and the ownership condition |
| `Storage` | storage.dfy | the relational store's observable rules |
| `CrudRouter` | crud.dfy | `createCrudRouter`'s five handlers |
| `Ddl`, `SchemaService` | ddl.dfy, schema_service.dfy | `createTableFromDefinition`, `checkAndCreateTable`, `publishModel`, `loadModels` |
| `Registry` | registry.dfy | `registerModelRoutes` and first-match dispatch |
| `AuthMiddleware` | auth_middleware.dfy | `protect` and `authorize` |
| `EmailPattern`, `AuthController` | email_pattern.dfy, auth_controller.dfy | registration, login, and the unrouted forgot/verify/reset handlers |
| `App` | app.dfy | the publish, list-models and delete-model endpoints, and the boot loop |

The code uses three table names, and they disagree:

- The router uses `tableName` when it is set, and otherwise the lower-cased
  name.
- Table creation and boot reconciliation always use the lower-cased name.
- The mount path always uses the lower-cased name.

The model keeps all three as written. The lemmas in `App` state what follows
from the mismatch.

## Model

| member | source | states |
|---|---|---|
| Validation.CheckField | crud-platform-backend/src/routes/generic.router.ts:32-65 | an empty value (`undefined`, `null`, `""`) fails exactly the required fields; a present value fails only its type's test (number, float, boolean-like), each with its own message |
| Validation.ValidateData | crud-platform-backend/src/routes/generic.router.ts:31-68 | no message iff every field passes; otherwise the message of the first failing field in declaration order |
| Validation.ValidateMatchesAccepts | crud-platform-backend/src/routes/generic.router.ts:31-68 | the validator accepts a payload iff every required field is present and every present value passes its type's test (both directions) |
| Validation.FalseNeverRequired | crud-platform-backend/src/routes/generic.router.ts:36-42 | `false` never triggers the required message, and a boolean field holding `false` passes |
| Validation.BooleanExemptionUnreachable | crud-platform-backend/src/routes/generic.router.ts:36-38 | the `value === false` exemption inside the emptiness branch can never be taken |
| Validation.UndeclaredKeysIgnored | crud-platform-backend/src/routes/generic.router.ts:32-33 | payloads agreeing on the declared field names get the same verdict |
| Validation.VerdictOnDeclaredKeys | crud-platform-backend/src/routes/generic.router.ts:31-68 | the verdict equals the verdict on the payload restricted to declared names |
| Policy.CheckRbac | crud-platform-backend/src/routes/generic.router.ts:74-87 | 401 iff no principal or empty role; passes iff the role's list names the operation or `all`; 403 otherwise |
| Policy.UnlistedRoleForbidden | crud-platform-backend/src/routes/generic.router.ts:79-85 | a role absent from `rbac` gets 403 on every operation |
| Policy.AllGrantsEverything | crud-platform-backend/src/routes/generic.router.ts:81-82 | `all` admits every operation |
| Policy.OwnershipCases | crud-platform-backend/src/routes/generic.router.ts:164-170 | Admin and models without owner column never refused; otherwise allowed iff the row's owner equals the principal's id |
| CrudRouter.Stamp | crud-platform-backend/src/routes/generic.router.ts:115-117 | the owner column is set to the principal's id; every other body key is kept unchanged; nothing else is added |
| CrudRouter.CreateItem | crud-platform-backend/src/routes/generic.router.ts:101-125 | role check, then 400 with the first validation message, then 201 iff the router's table exists, returning a fresh id whose row keeps the body and the stamped owner; a missing table is the 500 "Error creating item"; other tables untouched; any failure leaves the store unchanged |
| CrudRouter.ListItems | crud-platform-backend/src/routes/generic.router.ts:128-135 | 200 with all rows iff role check passes and table exists; on a missing table the handler's promise rejects uncaught |
| CrudRouter.GetItem | crud-platform-backend/src/routes/generic.router.ts:138-146 | 200 with the row iff it exists; 404 for a missing id; on a missing table the promise rejects uncaught; store unchanged |
| CrudRouter.UpdateItem | crud-platform-backend/src/routes/generic.router.ts:149-181 | order: role, validation (400), missing table (500 "Error updating item"), missing row (404), ownership (403), empty body (the same 500); 200 iff all pass and the body is non-empty; the row becomes the old row overridden by the body and no other row or table changes |
| CrudRouter.DeleteItem | crud-platform-backend/src/routes/generic.router.ts:184-206 | order: role, missing table (500 "Error deleting item"), missing row (404), ownership (403); 204 iff all pass; exactly that row is removed |
| CrudRouter.UpdateValidatesBeforeLookup | crud-platform-backend/src/routes/generic.router.ts:153-162 | an invalid body is a 400 even for a missing id |
| CrudRouter.MutationRequiresOwnership | crud-platform-backend/src/routes/generic.router.ts:164-198 | a successful non-Admin update or delete on an owned model touched a row the principal owns; Admin can delete any existing row it may delete |
| CrudRouter.CreateThenGet | crud-platform-backend/src/routes/generic.router.ts:119-145 | a created row reads back by its id exactly as returned |
| CrudRouter.CreateThenList | crud-platform-backend/src/routes/generic.router.ts:119-133 | a row created with 201 appears, unchanged and under its id, in the next list |
| CrudRouter.DeleteThenGet | crud-platform-backend/src/routes/generic.router.ts:142-200 | a deleted row then reads as 404 |
| Storage.CreateTable | crud-platform-backend/src/services/schema.service.ts:79-118 | a CREATE followed by one ALTER per foreign key, with no transaction: it succeeds iff the name is free, column names are distinct and every foreign key names an existing table or the new table itself, adding an empty table; a taken name or a repeated column leaves the database unchanged; otherwise the error is `relation "<t>" does not exist` for the first dangling key, and the table stays behind with the keys before that one; foreign keys stay resolvable in every outcome |
| Storage.DropTableIfExists | crud-platform-backend/src/index.ts:100 | fails iff the table exists and another table references it; otherwise removes exactly that name, and every remaining foreign key still resolves |
| Storage.Insert | crud-platform-backend/src/routes/generic.router.ts:119 | the new id is fresh and positive, and only that row is added |
| Storage.UpdateRow | crud-platform-backend/src/routes/generic.router.ts:172-175 | body values overwrite, other columns and rows are kept |
| Storage.DeleteRow | crud-platform-backend/src/routes/generic.router.ts:200 | exactly the id is removed |
| Ddl.Columns | crud-platform-backend/src/services/schema.service.ts:79-116 | succeeds iff every required field has a mapped type; `id` first, `created_at` and `updated_at` last, one column per mapped field plus the owner column in between, and every mapped field's column present |
| Ddl.FieldColumns | crud-platform-backend/src/services/schema.service.ts:83-105 | succeeds iff every required field has a mapped type; every mapped field yields its column and nothing else is produced |
| Ddl.FieldColumnsInFieldOrder | crud-platform-backend/src/services/schema.service.ts:83-105 | one column per mapped field, in field order: a strictly increasing list of exactly the mapped field indices lines up with the columns |
| Ddl.ImplicitColumns | crud-platform-backend/src/services/schema.service.ts:80-116 | `id` first as increments primary key; `created_at`, `updated_at` last, not null, defaulting to now |
| Ddl.ColumnsFailIffRequiredUnmapped | crud-platform-backend/src/services/schema.service.ts:83-105 | synthesis fails exactly when a required field's type has no column case |
| Ddl.TypeMapping | crud-platform-backend/src/services/schema.service.ts:85-104 | string to varchar, number to integer, boolean to boolean default false, relation to unsigned integer with a lower-cased foreign key; `required` becomes not-null |
| Ddl.OwnerColumnPresent | crud-platform-backend/src/services/schema.service.ts:108-114 | with `ownerField`, an unsigned integer column referencing `users.id` ON DELETE SET NULL; without it, only relation fields naming `users` reference that table |
| Ddl.UnmappedFieldHasNoColumn | crud-platform-backend/src/services/schema.service.ts:84-101 | an optional field of unmapped type gets no column |
| SchemaService.RepeatedFieldNameRefused | crud-platform-backend/src/services/schema.service.ts:79-105 | two mapped fields with the same name give two same-named columns, so the table is never created |
| SchemaService.CreateTableFromDefinition | crud-platform-backend/src/services/schema.service.ts:75-118 | succeeds iff columns synthesise, the lower-cased name is free, names are distinct, and every relation and owner target table exists (or is the table itself), adding exactly that table; a failure leaves a table behind iff the CREATE itself ran, and then it is that one new, empty table with one column per synthesised column, every other table untouched |
| SchemaService.PublishModel | crud-platform-backend/src/services/schema.service.ts:44-52 | the file is written before the table is created, so it holds the definition whatever the creation does; every other file is kept; a success or a partial failure means the table was absent before and is present after |
| SchemaService.CheckAndCreateTable | crud-platform-backend/src/services/schema.service.ts:59-69 | an existing table is left as is; otherwise the table is created; every old table is kept; it fails only when the table is missing and creation fails |
| SchemaService.CheckAndCreateIdempotent | crud-platform-backend/src/services/schema.service.ts:59-69 | reconciling twice equals reconciling once |
| SchemaService.RepublishFailsButOverwrites | crud-platform-backend/src/services/schema.service.ts:44-52 | republishing a published name fails yet overwrites the file |
| SchemaService.ReconcileToleratesExisting | crud-platform-backend/src/services/schema.service.ts:44-69 | with the table present, reconciling is a no-op while publishing fails |
| SchemaService.LoadFrom | crud-platform-backend/src/services/schema.service.ts:124-142 | fails iff some listed `.json` file does not read and parse |
| SchemaService.LoadFromContents | crud-platform-backend/src/services/schema.service.ts:130-136 | when every listed `.json` file reads, the loop yields their definitions in listing order |
| SchemaService.LoadModels | crud-platform-backend/src/services/schema.service.ts:124-142 | every loaded definition is the parsed content of some `.json` file of the directory |
| SchemaService.LoadModelsContents | crud-platform-backend/src/services/schema.service.ts:124-142 | for a listing of the directory: the definitions of all its `.json` files in listing order when every one reads, `[]` as soon as one does not |
| SchemaService.LoadedIncludes | crud-platform-backend/src/services/schema.service.ts:124-142 | when every definition reads, each `.json` file's definition is among the loaded ones |
| SchemaService.OneBadFileEmptiesLoad | crud-platform-backend/src/services/schema.service.ts:133-141 | one unreadable definition in the directory hides all others |
| SchemaService.NonJsonIgnored | crud-platform-backend/src/services/schema.service.ts:130-131 | files not ending in `.json` never affect the result |
| Registry.RegisterModelRoutes | crud-platform-backend/src/services/router.service.ts:32-42 | appends exactly one mount at `/api/` followed by the lower-cased model name, keeping all earlier ones |
| Registry.Dispatch | crud-platform-backend/src/services/router.service.ts:41 | the model of the earliest mount whose path matches regardless of case, or none iff no mount matches |
| Registry.DispatchAppend | crud-platform-backend/src/services/router.service.ts:41 | a later mount never changes who serves a path that was already served |
| Registry.RegisterEffect | crud-platform-backend/src/services/router.service.ts:32-42 | after registering, the model's path is served, by the new router only if no earlier mount matched |
| Registry.MountPathIgnoresCaseAndTableName | crud-platform-backend/src/services/router.service.ts:33-41 | names equal up to case share a mount path; `tableName` does not affect it |
| AuthMiddleware.UntilSpace | crud-platform-backend/src/middleware/auth.middleware.ts:17 | a space-free prefix of the input, ending at its first space |
| AuthMiddleware.ExtractToken | crud-platform-backend/src/middleware/auth.middleware.ts:16-18 | a token iff the header starts with `Bearer `; it is space-free and is followed by end of header or a space |
| AuthMiddleware.ExtractRoundTrip | crud-platform-backend/src/middleware/auth.middleware.ts:16-18 | `Bearer <token>` followed by nothing or a space-led rest yields the token back |
| AuthMiddleware.Protect | crud-platform-backend/src/middleware/auth.middleware.ts:12-34 | no or empty token: 401 no token; rejected token: 401 token failed; passes iff the token verifies, with the decoded principal |
| AuthMiddleware.NoBearerNoVerify | crud-platform-backend/src/middleware/auth.middleware.ts:16-22 | a header without the prefix never reaches verification |
| AuthMiddleware.Authorize | crud-platform-backend/src/middleware/auth.middleware.ts:37-44 | passes iff a principal is present and its role is listed; otherwise 403 |
| AuthMiddleware.ProtectAndAuthorize | crud-platform-backend/src/index.ts:40-41 | passes iff authentication passes and the role is listed; authentication failures come through unchanged |
| EmailPattern.LevelStep | crud-platform-backend/src/controllers/auth.controller.ts:61 | each character moves the pattern automaton exactly as its transition function says |
| EmailPattern.MatchesEmailPattern | crud-platform-backend/src/controllers/auth.controller.ts:61 | a one-pass scan answers true iff some `x@y.z` with whitespace-free parts occurs in the input |
| AuthController.NormaliseRole | crud-platform-backend/src/controllers/auth.controller.ts:74 | the stored role is always one of the three, the requested one when valid, else `Viewer` |
| AuthController.Register | crud-platform-backend/src/controllers/auth.controller.ts:53-85 | the three 400s in order; 409 iff the e-mail is taken, which still uses up one id of the sequence; 201 otherwise, appending one user with the next id, the hash and the normalised role; e-mails and ids stay unique |
| AuthController.RegisterThenLogin | crud-platform-backend/src/controllers/auth.controller.ts:53-118 | after a 201 registration, logging in with the same e-mail and password succeeds with the new id and stored role |
| AuthController.FindByEmail | crud-platform-backend/src/controllers/auth.controller.ts:98 | the first row with that e-mail, or none iff no row has it |
| AuthController.Login | crud-platform-backend/src/controllers/auth.controller.ts:88-123 | 400 for missing credentials; 200 iff the first user with that e-mail matches the password, with a token for its id and role; 401 otherwise |
| AuthController.ForgotPassword | crud-platform-backend/src/controllers/auth.controller.ts:126-184 | 404 for an unknown e-mail; otherwise exactly that user gets the token, expiring one hour after now |
| AuthController.FindByToken | crud-platform-backend/src/controllers/auth.controller.ts:191-194 | the first row holding the token with expiry after now, or none iff there is no such row |
| AuthController.VerifyResetToken | crud-platform-backend/src/controllers/auth.controller.ts:187-206 | 200 iff some user holds the token unexpired, else 400 |
| AuthController.ResetPassword | crud-platform-backend/src/controllers/auth.controller.ts:209-244 | a short password is a 400; an acceptable password with no user holding the token unexpired is the 400 "Token is invalid or has expired. Please request a new link."; 200 iff the token is valid, replacing exactly that user's hash and clearing both token columns |
| AuthController.ForgotThenVerify | crud-platform-backend/src/controllers/auth.controller.ts:143-193 | an issued token verifies at any time before one hour has passed |
| AuthController.ResetSpendsToken | crud-platform-backend/src/controllers/auth.controller.ts:232-236 | after a reset, a token no other user held never verifies again |
| AuthController.ResetAgreesWithVerify | crud-platform-backend/src/controllers/auth.controller.ts:187-226 | with an acceptable password, reset succeeds iff the token verifies |
| App.Publish | crud-platform-backend/src/index.ts:38-54 | auth failures pass through unchanged; once admitted the file is always written; 201 iff the table is created, then mounted; otherwise 500, with no mount and the database as the failed creation left it |
| App.NonAdminCannotPublish | crud-platform-backend/src/index.ts:38-41 | a signed-in non-Admin gets 403 and nothing changes |
| App.RelationNeedsTargetTable | crud-platform-backend/src/services/schema.service.ts:95-99 | publishing a relation to a model whose table does not exist is a 500 that mounts nothing, though the file is written; if the CREATE ran, the new empty table stays, with the relation's column but without its foreign key |
| App.RetryAfterDanglingRelationFails | crud-platform-backend/src/index.ts:38-54 | after that failure, publishing a valid target succeeds, and publishing the same model again is still a 500, because the left-over table makes the CREATE fail, while reconciling at boot accepts the table as it is |
| App.PublishServesPath | crud-platform-backend/src/index.ts:45-48 | after a publish the model's path is served |
| App.ListModels | crud-platform-backend/src/index.ts:57-70 | 200 with name, description and fields of each loaded definition in load order |
| App.ListShowsEveryModel | crud-platform-backend/src/index.ts:57-65 | when every definition reads, each one in the directory is listed |
| App.PublishThenList | crud-platform-backend/src/index.ts:45-65 | a published model appears in the next list of models, if every definition reads |
| App.DropTarget | crud-platform-backend/src/index.ts:86-96 | the persisted definition's `tableName` if it reads and sets one, else the lower-cased name |
| App.DeleteModel | crud-platform-backend/src/index.ts:72-117 | mounts never change; 400 for a bad name before any access; 500 iff the drop is refused, changing nothing; 200 iff it succeeds, dropping the target and removing the file unless unlinking fails |
| App.BootLoop | crud-platform-backend/src/index.ts:121-145 | on success, one mount per loaded model in order after the old ones, each model's table present, old tables and files unchanged |
| App.BootLoopKeepsInv | crud-platform-backend/src/index.ts:129-133 | a boot keeps every foreign key resolvable, whether it succeeds or stops at a failed creation |
| App.Boot | crud-platform-backend/src/index.ts:121-145 | an unreadable definition loads nothing, so the boot changes nothing; when every definition reads, a successful boot has each one's table and mount; every mount it adds serves a definition from the directory |
| App.BootAddsModelTables | crud-platform-backend/src/index.ts:129-133 | a successful boot adds exactly the loaded models' tables to those already there |
| App.BootFailsOnlyOnMissingTable | crud-platform-backend/src/services/schema.service.ts:59-69 | a boot fails only if some loaded model's table was missing, since reconciling never fails on an existing table |
| App.RebootKeepsDatabase | crud-platform-backend/src/index.ts:129-133 | with every loaded model's table present, the boot succeeds and the database is unchanged |
| App.RebootAfterDanglingKey | crud-platform-backend/src/index.ts:121-145 | when the only missing table has a dangling foreign key, the boot fails and leaves that table behind, so the next boot succeeds without creating anything |
| App.BootRecreatesMissingTable | crud-platform-backend/src/index.ts:129-133 | with exactly one loaded model's table missing and its creation possible, the boot succeeds and the database gains exactly that table |
| App.HandleCrud | crud-platform-backend/src/routes/generic.router.ts:93-206 | no mount: 404; `protect` runs first; once it passes, each request kind gets exactly the response and database of its handler for the first matching mount's model and the decoded principal; files and mounts never change |
| App.OverrideMissesPublishedTable | crud-platform-backend/src/routes/generic.router.ts:96 | with a `tableName` override, publish creates the lower-cased table yet the router's create is a 500 |
| App.TableNamesAgreeWithoutOverride | crud-platform-backend/src/routes/generic.router.ts:96 | without an override the router, DDL and mount agree |
| App.DeleteWithOverrideLeavesTable | crud-platform-backend/src/index.ts:86-100 | deleting a model with an override leaves the lower-cased table |
| App.DeletedModelStillRouted | crud-platform-backend/src/index.ts:98-110 | after deletion the router is still mounted, and a list request reaches a handler whose promise rejects uncaught |
| App.DeleteByOtherCaseIsUndone | crud-platform-backend/src/index.ts:84-104 | on a case-sensitive file system, deleting by another casing drops the table but keeps the file, so the next boot recreates and remounts it |
| App.FloatValidatedButNotStored | crud-platform-backend/src/routes/generic.router.ts:53-57 | a float field is validated but gets no column, and if required makes publishing fail |

## Left out

- Network, HTTP parsing, the JSON body parser, CORS, console logging, process exit: the boot failure is an `Err` result.
- Token signing and verification, password hashing and comparison, random token generation, e-mail delivery: parameters.
- `Number()`/`parseFloat()` semantics: a parameter; the model only distinguishes NaN from not NaN.
- The database's type coercion and its rejection of unknown columns or not-null violations on insert and update; `ON DELETE SET NULL` effects on referencing rows; the `users` table's own schema. Accounts live in a store of their own, and the database holds a `users` table only if the initial state says so; an owned model's table is created only when it does, as the foreign key to `users.id` demands.
- Non-ASCII case folding: `toLowerCase` is modelled on ASCII letters only.
- Concurrency: each request is an atomic transition.
- The static routes registered before model mounts (`/api/auth`, `/api/models`) shadowing a model with the same path.
- `models.js` and the Express wiring of the auth routes are not part of this model.
- The `id` key in create and update bodies: rows are keyed by id, and a body that sets `id` is not modelled.
- App.HandleCrud: the fall-through 404 text is a placeholder, not the framework's exact `Cannot <METHOD> <path>` page.
- CrudRouter.CreateItem: database failures other than a missing table (for example constraint violations) are not modelled as 500s.
- CrudRouter.CreateItem: the row stored and answered is the stamped body; the columns the database fills in and `returning('*')` sends back (`created_at`, `updated_at`, `false` for an omitted boolean, NULL for other omitted columns) are not added. The same holds for the rows UpdateItem, GetItem and ListItems return.
- CrudRouter.UpdateItem: the 500 bodies of create, update and delete carry only the message; the `error` field with the driver's own message is left out.
- CrudRouter.UpdateItem: database failures other than a missing table or an empty body are not modelled as 500s.
- CrudRouter.DeleteItem: database failures other than a missing table are not modelled as 500s.
- AuthController.Register: the generic 500 for database errors other than the unique-e-mail violation is not modelled.
- AuthController.Login: the generic 500 for database errors is not modelled.
- AuthController.ForgotPassword: a failure of the mail transport after the token is saved, which also answers 200 with the internal-error text, is not modelled.
- AuthController.VerifyResetToken: the 500 for a database error is not modelled.
- AuthController.ResetPassword: the 500 for a database error is not modelled.
- App.ListModels: the 500 branch is not modelled, because definitions are taken as well formed: a `.json` file holding, say, `null` loads, and reading its `name` throws into that branch (`crud-platform-backend/src/index.ts:61-69`).
- Published definitions are taken as well formed (a string name, a field list): the publish endpoint does not check its body, and a malformed one fails at whatever step first touches the missing part.
- App.Publish: a failure to create the models directory or write the file, which is also a 500 but leaves no file, is not modelled.
- Policy.CheckRbac: role names that collide with JavaScript object prototype keys (`constructor` and the like) are treated as unlisted roles.
- Validation.CheckField: the body is a map, so a field named after a JavaScript object prototype key (`constructor`, `toString`) reads as absent; in the code it reads the inherited function, passes the required check and fails the type check instead.
- CrudRouter.ListItems: what a client sees after the uncaught rejection on a missing table is not modelled; it depends on the framework and Node versions, which the repository does not pin (a 500 under Express 5, process termination under Express 4 on Node 15 or later).
- CrudRouter.GetItem: the same runtime-dependent outcome after the uncaught rejection on a missing table is not modelled; a non-numeric `:id` (a database type error, also uncaught here) is not expressible, because ids are integers.
- CrudRouter.UpdateItem: a non-numeric `:id`, which the database rejects and the catch answers with a 500, is not expressible, because ids are integers.
- CrudRouter.DeleteItem: a non-numeric `:id`, which the database rejects and the catch answers with a 500, is not expressible, because ids are integers.
- App.DeletedModelStillRouted: the client-visible outcome of the uncaught rejection is runtime-dependent, as for CrudRouter.ListItems.
- App.DeleteByOtherCaseIsUndone: holds only on a case-sensitive file system; on a case-insensitive one the other-case name reaches the same file and unlinks it.
- Storage.CreateTable: the referenced column's uniqueness is not checked; every reference here targets `id`, a primary key.
- Password length is counted in characters of the model string, not UTF-16 code units.

Behaviour of the code that its own comments or names suggest otherwise:

- the create and reconcile paths ignore `tableName`, though the router honours it (`crud-platform-backend/src/routes/generic.router.ts:95-96`);
- the mount path is `/api/<lower-cased name>`, whatever `tableName` says;
- deleting a model leaves its router mounted;
- table creation is not transactional: the CREATE runs first and each foreign key is added afterwards, so a relation to a missing table leaves a half-built table behind; publishing the same model again then fails on the existing table, while the next boot accepts it as it is (`crud-platform-backend/src/services/schema.service.ts:79-118`, `crud-platform-backend/src/index.ts:129-133`);
- `forgotPassword` answers 404 for an unknown e-mail, though its comment at `crud-platform-backend/src/controllers/auth.controller.ts:132-133` says it always answers 200.

=== FILE: app.dfy ===
/** The server's own endpoints and its boot loop, as transitions over one
    store: the live tables, the models directory, and the mount list. */
module App {
  import opened Common
  import opened Definitions
  import opened Validation
  import opened Policy
  import opened Storage
  import opened Ddl
  import opened SchemaService
  import opened Registry
  import opened CrudRouter
  import opened AuthMiddleware

  datatype Store = Store(db: Db, files: ModelFiles, mounts: seq<Mount>)

  predicate StoreInv(s: Store) {
    DbInv(s.db)
  }

  /** What the identity layer contributes to a request: the Authorization
      header and the token verifier. */
  datatype Auth = Auth(header: Option<string>, verify: string -> Option<Principal>)

  datatype Step = Step(response: Response, store: Store)

  const AdminOnly := [AdminRole]

  /** The two replies of the publish endpoint. */
  const Published := Reply(201, Message("Model published successfully"))
  const PublishFailed := Reply(500, Message("Failed to publish model"))

  /** `POST /api/models/publish`: admins only; persist and create, then mount;
      any failure is a 500 and mounts nothing, though the file stays written,
      and so does a table whose create ran before a foreign key failed. */
  function Publish(s: Store, auth: Auth, m: ModelDefinition): (r: Step)
    requires StoreInv(s)
    ensures StoreInv(r.store)
    ensures ProtectAndAuthorize(auth.header, auth.verify, AdminOnly).Stop? ==>
              r == Step(ProtectAndAuthorize(auth.header, auth.verify, AdminOnly).response, s)
    ensures ProtectAndAuthorize(auth.header, auth.verify, AdminOnly).Pass? ==>
              r.store.files == s.files[FileName(m.name) := Parsed(m)]
    ensures r.response == Published <==>
              ProtectAndAuthorize(auth.header, auth.verify, AdminOnly).Pass? && CreateTableFromDefinition(s.db, m).Ok?
    ensures r.response == Published ==>
              r.store.mounts == RegisterModelRoutes(s.mounts, m) && r.store.db == CreateTableFromDefinition(s.db, m).value
    ensures ProtectAndAuthorize(auth.header, auth.verify, AdminOnly).Pass? && CreateTableFromDefinition(s.db, m).Err? ==>
              r.response == PublishFailed && r.store.mounts == s.mounts &&
              r.store.db == CreateTableFromDefinition(s.db, m).error.db
  {
    match ProtectAndAuthorize(auth.header, auth.verify, AdminOnly)
    case Stop(resp) => Step(resp, s)
    case Pass(_) =>
      var (created, files') := PublishModel(s.db, s.files, m);
      match created
      case Err(f) => Step(PublishFailed, Store(f.db, files', s.mounts))
      case Ok(db') => Step(Published, Store(db', files', RegisterModelRoutes(s.mounts, m)))
  }

  /** Only an administrator reaches the publish logic; any other signed-in
      role is turned away before anything is written. */
  lemma NonAdminCannotPublish(s: Store, auth: Auth, m: ModelDefinition)
    requires StoreInv(s)
    requires Protect(auth.header, auth.verify).Pass? && Protect(auth.header, auth.verify).value.role != AdminRole
    ensures Publish(s, auth, m) == Step(RoleForbidden, s)
  {
  }

  /** After a successful publish the model's path is served, by the new
      router unless an earlier mount already answered that path. */
  lemma PublishServesPath(s: Store, auth: Auth, m: ModelDefinition)
    requires StoreInv(s)
    requires Publish(s, auth, m).response == Published
    ensures Dispatch(Publish(s, auth, m).store.mounts, MountPath(m)).Some?
    ensures Dispatch(s.mounts, MountPath(m)).None? ==> Dispatch(Publish(s, auth, m).store.mounts, MountPath(m)) == Some(m)
  {
    RegisterEffect(s.mounts, m);
  }

  /** A relation to a model whose table does not exist yet cannot be
      published: the answer is a 500 and nothing is mounted, while the
      definition file has already been written. When the create itself ran,
      its table stays behind, empty, with no foreign key on the relation
      column. */
  lemma RelationNeedsTargetTable(s: Store, auth: Auth, m: ModelDefinition, i: int)
    requires StoreInv(s)
    requires ProtectAndAuthorize(auth.header, auth.verify, AdminOnly).Pass?
    requires 0 <= i < |m.fields| && m.fields[i].ftype == RelationType && Truthy(m.fields[i].relation)
    requires Lower(m.fields[i].relation.value) !in s.db.tables && Lower(m.fields[i].relation.value) != DdlTableName(m)
    ensures var r := Publish(s, auth, m);
            r.response == PublishFailed &&
            r.store.files == s.files[FileName(m.name) := Parsed(m)] && r.store.mounts == s.mounts
    ensures !(Columns(m).Ok? && DdlTableName(m) !in s.db.tables && DistinctNames(Columns(m).value)) ==>
              Publish(s, auth, m).store.db == s.db
    ensures Columns(m).Ok? && DdlTableName(m) !in s.db.tables && DistinctNames(Columns(m).value) ==>
              var db' := Publish(s, auth, m).store.db;
              db'.tables.Keys == s.db.tables.Keys + {DdlTableName(m)} &&
              (forall n :: n in s.db.tables ==> db'.tables[n] == s.db.tables[n]) &&
              db'.tables[DdlTableName(m)].rows == map[] &&
              exists c :: c in db'.tables[DdlTableName(m)].columns && c.name == m.fields[i].name && c.references.None?
  {
    DanglingRelationLosesKey(s.db, m, i);
  }

  /** A relation to a missing table: creating the model's table fails, and
      when the `CREATE TABLE` itself ran, the table it left holds the
      relation's column without its foreign key. */
  lemma DanglingRelationLosesKey(db: Db, m: ModelDefinition, i: int)
    requires 0 <= i < |m.fields| && m.fields[i].ftype == RelationType && Truthy(m.fields[i].relation)
    requires Lower(m.fields[i].relation.value) !in db.tables && Lower(m.fields[i].relation.value) != DdlTableName(m)
    ensures CreateTableFromDefinition(db, m).Err?
    ensures Columns(m).Ok? && DdlTableName(m) !in db.tables && DistinctNames(Columns(m).value) ==>
              exists c :: c in CreateTableFromDefinition(db, m).error.db.tables[DdlTableName(m)].columns &&
                c.name == m.fields[i].name && c.references.None?
  {
    if Columns(m).Ok? {
      var cols := Columns(m).value;
      var k := DanglingColumn(db, m, i);
      assert !RefsResolve(db, DdlTableName(m), cols);
      if DdlTableName(m) !in db.tables && DistinctNames(cols) {
        var d := FirstDangling(db, DdlTableName(m), cols);
        assert d <= k;
        assert CreateTableFromDefinition(db, m).error.db.tables[DdlTableName(m)].columns == KeysBefore(cols, d);
        assert KeysBefore(cols, d)[k] == cols[k].(references := None);
      }
    }
  }

  /** The position of a relation field's column, whose foreign key names a
      missing table. */
  lemma DanglingColumn(db: Db, m: ModelDefinition, i: int) returns (k: int)
    requires 0 <= i < |m.fields| && m.fields[i].ftype == RelationType && Truthy(m.fields[i].relation)
    requires Lower(m.fields[i].relation.value) !in db.tables && Lower(m.fields[i].relation.value) != DdlTableName(m)
    requires Columns(m).Ok?
    ensures 0 <= k < |Columns(m).value| && Columns(m).value[k].name == m.fields[i].name
    ensures !KeyResolves(db, DdlTableName(m), Columns(m).value[k])
  {
    TypeMapping(m, i);
    var f := m.fields[i];
    var c := Column(f.name, Integer, true, false, f.required, NoDefault,
                    Some(ForeignKey(Lower(f.relation.value), "id", "SET NULL")));
    k :| 0 <= k < |Columns(m).value| && Columns(m).value[k] == c;
  }

  /** Publishing a model before its relation target, then the target, then
      the model again: the first attempt leaves the model's table behind, so
      the target's publish does not disturb it and the retry is a 500, while
      the reconcile at the next boot accepts the table as it is. */
  lemma RetryAfterDanglingRelationFails(s: Store, auth: Auth, m: ModelDefinition, i: int, target: ModelDefinition)
    requires StoreInv(s)
    requires ProtectAndAuthorize(auth.header, auth.verify, AdminOnly).Pass?
    requires 0 <= i < |m.fields| && m.fields[i].ftype == RelationType && Truthy(m.fields[i].relation)
    requires Lower(m.fields[i].relation.value) !in s.db.tables && Lower(m.fields[i].relation.value) != DdlTableName(m)
    requires Columns(m).Ok? && DdlTableName(m) !in s.db.tables && DistinctNames(Columns(m).value)
    requires DdlTableName(target) == Lower(m.fields[i].relation.value)
    requires Columns(target).Ok? && DistinctNames(Columns(target).value) &&
             RefsResolve(s.db, DdlTableName(target), Columns(target).value)
    ensures Publish(Publish(s, auth, m).store, auth, target).response == Published
    ensures var s2 := Publish(Publish(s, auth, m).store, auth, target).store;
            DdlTableName(m) in s2.db.tables &&
            Publish(s2, auth, m).response == PublishFailed &&
            CheckAndCreateTable(s2.db, m) == Ok(s2.db)
  {
    RelationNeedsTargetTable(s, auth, m, i);
    var s1 := Publish(s, auth, m).store;
    ResolveInLargerDb(s.db, s1.db, DdlTableName(target), Columns(target).value);
  }

  /** Foreign keys that resolve keep resolving once tables are added. */
  lemma ResolveInLargerDb(db: Db, db': Db, name: string, cols: seq<Column>)
    requires db.tables.Keys <= db'.tables.Keys && RefsResolve(db, name, cols)
    ensures RefsResolve(db', name, cols)
  {
  }

  function Summary(m: ModelDefinition): ModelSummary {
    ModelSummary(m.name, m.description, m.fields)
  }

  /** `GET /api/models`: any authenticated user; the loaded definitions
      projected to name, description and fields, in load order. */
  function ListModels(s: Store, auth: Auth, listing: seq<string>): (r: Response)
    requires ListingOf(s.files, listing)
    ensures Protect(auth.header, auth.verify).Stop? ==> r == Protect(auth.header, auth.verify).response
    ensures Protect(auth.header, auth.verify).Pass? ==>
              r.Reply? && r.status == 200 && r.body.Summaries? &&
              var ms := LoadModels(s.files, listing);
              |r.body.models| == |ms| &&
              forall i :: 0 <= i < |ms| ==>
                r.body.models[i].name == ms[i].name && r.body.models[i].description == ms[i].description &&
                r.body.models[i].fields == ms[i].fields
  {
    match Protect(auth.header, auth.verify)
    case Stop(resp) => resp
    case Pass(_) =>
      var ms := LoadModels(s.files, listing);
      Reply(200, Summaries(seq(|ms|, i requires 0 <= i < |ms| => Summary(ms[i]))))
  }

  /** Every definition in the directory is listed, provided all of them read. */
  lemma ListShowsEveryModel(st: Store, reader: Auth, listing: seq<string>, f: string)
    requires ListingOf(st.files, listing)
    requires forall g :: g in st.files && IsJson(g) ==> st.files[g].Parsed?
    requires f in st.files && IsJson(f)
    requires Protect(reader.header, reader.verify).Pass?
    ensures var r := ListModels(st, reader, listing);
            exists k :: 0 <= k < |r.body.models| && r.body.models[k] == Summary(st.files[f].def)
  {
    LoadedIncludes(st.files, listing, f);
    var ms := LoadModels(st.files, listing);
    var k :| 0 <= k < |ms| && ms[k] == st.files[f].def;
    var r := ListModels(st, reader, listing);
    assert r.body.models[k] == Summary(ms[k]);
  }

  /** A published model appears in the next listing of models, provided every
      definition in the directory reads. */
  lemma PublishThenList(s: Store, auth: Auth, m: ModelDefinition, listing: seq<string>, reader: Auth)
    requires StoreInv(s)
    requires Publish(s, auth, m).response == Published
    requires ListingOf(Publish(s, auth, m).store.files, listing)
    requires forall f :: f in s.files && IsJson(f) ==> s.files[f].Parsed?
    requires Protect(reader.header, reader.verify).Pass?
    ensures var r := ListModels(Publish(s, auth, m).store, reader, listing);
            exists k :: 0 <= k < |r.body.models| && r.body.models[k] == Summary(m)
  {
    var st := Publish(s, auth, m).store;
    assert st.files == s.files[FileName(m.name) := Parsed(m)];
    assert IsJson(FileName(m.name)) by {
      assert FileName(m.name)[|FileName(m.name)| - 5..] == ".json";
    }
    forall g | g in st.files && IsJson(g)
      ensures st.files[g].Parsed?
    {
      if g != FileName(m.name) {
        assert st.files[g] == s.files[g];
      }
    }
    ListShowsEveryModel(st, reader, listing, FileName(m.name));
  }

  /** `^[a-zA-Z0-9_]+$`. */
  predicate NameChar(c: char) {
    'a' <= c <= 'z' || 'A' <= c <= 'Z' || '0' <= c <= '9' || c == '_'
  }

  predicate ValidModelName(name: string) {
    |name| > 0 && forall i :: 0 <= i < |name| ==> NameChar(name[i])
  }

  /** The table delete-model drops: the persisted definition's `tableName`
      when the file reads and sets one, else the lower-cased name. */
  function DropTarget(files: ModelFiles, modelName: string): (r: string)
    ensures Loadable(files, FileName(modelName)) && Truthy(files[FileName(modelName)].def.tableName) ==>
              r == files[FileName(modelName)].def.tableName.value
    ensures !(Loadable(files, FileName(modelName)) && Truthy(files[FileName(modelName)].def.tableName)) ==>
              r == Lower(modelName)
  {
    var file := FileName(modelName);
    if file in files && files[file].Parsed? && Truthy(files[file].def.tableName) then files[file].def.tableName.value
    else Lower(modelName)
  }

  /** `DELETE /api/models/:modelName`: admins only; the name check before any
      access; drop the table (failure is a 500); then remove the file, where
      a missing file is silent and any other unlink failure is only logged.
      The mounted router is left in place. `unlinkFails` stands for a
      filesystem error other than a missing file. */
  function DeleteModel(s: Store, auth: Auth, modelName: string, unlinkFails: bool): (r: Step)
    requires StoreInv(s)
    ensures StoreInv(r.store)
    ensures r.store.mounts == s.mounts
    ensures ProtectAndAuthorize(auth.header, auth.verify, AdminOnly).Stop? ==>
              r == Step(ProtectAndAuthorize(auth.header, auth.verify, AdminOnly).response, s)
    ensures ProtectAndAuthorize(auth.header, auth.verify, AdminOnly).Pass? && !ValidModelName(modelName) ==>
              r == Step(Reply(400, Message("Invalid model name format.")), s)
    ensures r.response.Reply? && r.response.status == 500 <==>
              ProtectAndAuthorize(auth.header, auth.verify, AdminOnly).Pass? && ValidModelName(modelName) &&
              DropTableIfExists(s.db, DropTarget(s.files, modelName)).Err?
    ensures r.response.Reply? && r.response.status == 500 ==> r.store == s
    ensures r.response.Reply? && r.response.status == 200 <==>
              ProtectAndAuthorize(auth.header, auth.verify, AdminOnly).Pass? && ValidModelName(modelName) &&
              DropTableIfExists(s.db, DropTarget(s.files, modelName)).Ok?
    ensures r.response.Reply? && r.response.status == 200 ==>
              r.store.db.tables == s.db.tables - {DropTarget(s.files, modelName)} &&
              r.store.files == (if unlinkFails then s.files else s.files - {FileName(modelName)})
  {
    match ProtectAndAuthorize(auth.header, auth.verify, AdminOnly)
    case Stop(resp) => Step(resp, s)
    case Pass(_) =>
      if !ValidModelName(modelName) then Step(Reply(400, Message("Invalid model name format.")), s)
      else
        var table := DropTarget(s.files, modelName);
        match DropTableIfExists(s.db, table)
        case Err(e) => Step(Reply(500, Message(e)), s)
        case Ok(db') =>
          var files' := if unlinkFails then s.files else s.files - {FileName(modelName)};
          Step(Reply(200, Message("Model '" + modelName + "' and all its data deleted successfully.")), Store(db', files', s.mounts))
  }

  /** `startServer`'s loop: for each loaded definition in order, reconcile its
      table, then mount its router. A failed reconcile ends the boot; its
      failure carries the database as the boot left it. */
  function BootLoop(s: Store, models: seq<ModelDefinition>): (r: Result<Store, Failure>)
    ensures r.Ok? ==> |r.value.mounts| == |s.mounts| + |models| && r.value.mounts[..|s.mounts|] == s.mounts
    ensures r.Ok? ==> forall i :: 0 <= i < |models| ==>
              r.value.mounts[|s.mounts| + i] == Mount(MountPath(models[i]), models[i]) &&
              DdlTableName(models[i]) in r.value.db.tables
    ensures r.Ok? ==> r.value.files == s.files
    ensures r.Ok? ==> forall n :: n in s.db.tables ==> n in r.value.db.tables && r.value.db.tables[n] == s.db.tables[n]
  {
    BootEachMounts(s, models);
    BootEachTables(s, models);
    BootEach(s, models)
  }

  /** The loop itself, one definition at a time. */
  function BootEach(s: Store, models: seq<ModelDefinition>): Result<Store, Failure>
    decreases |models|
  {
    if models == [] then Ok(s)
    else
      match CheckAndCreateTable(s.db, models[0])
      case Err(e) => Err(e)
      case Ok(db') => BootEach(Store(db', s.files, RegisterModelRoutes(s.mounts, models[0])), models[1..])
  }

  /** The loop mounts each definition after the existing mounts, in order,
      and leaves the files alone. */
  lemma {:induction false} BootEachMounts(s: Store, models: seq<ModelDefinition>)
    ensures var r := BootEach(s, models);
            r.Ok? ==> |r.value.mounts| == |s.mounts| + |models| && r.value.mounts[..|s.mounts|] == s.mounts &&
                      r.value.files == s.files &&
                      forall i :: 0 <= i < |models| ==> r.value.mounts[|s.mounts| + i] == Mount(MountPath(models[i]), models[i])
    decreases |models|
  {
    if models != [] && CheckAndCreateTable(s.db, models[0]).Ok? {
      var s' := Store(CheckAndCreateTable(s.db, models[0]).value, s.files, RegisterModelRoutes(s.mounts, models[0]));
      BootEachMounts(s', models[1..]);
      assert BootEach(s, models) == BootEach(s', models[1..]);
      if BootEach(s', models[1..]).Ok? {
        BootMountsExtend(s.mounts, models, s'.mounts, BootEach(s', models[1..]).value.mounts);
      }
    }
  }

  /** The loop holds each definition's table and keeps every table that was
      there. */
  lemma {:induction false} BootEachTables(s: Store, models: seq<ModelDefinition>)
    ensures var r := BootEach(s, models);
            r.Ok? ==> (forall i :: 0 <= i < |models| ==> DdlTableName(models[i]) in r.value.db.tables) &&
                      forall n :: n in s.db.tables ==> n in r.value.db.tables && r.value.db.tables[n] == s.db.tables[n]
    decreases |models|
  {
    if models != [] && CheckAndCreateTable(s.db, models[0]).Ok? {
      var db' := CheckAndCreateTable(s.db, models[0]).value;
      var s' := Store(db', s.files, RegisterModelRoutes(s.mounts, models[0]));
      BootEachTables(s', models[1..]);
      assert BootEach(s, models) == BootEach(s', models[1..]);
      if BootEach(s', models[1..]).Ok? {
        BootTablesExtend(s.db, models, db', BootEach(s', models[1..]).value.db);
      }
    }
  }

  /** A boot keeps the database invariant, whether it succeeds or fails. */
  lemma {:induction false} BootLoopKeepsInv(s: Store, models: seq<ModelDefinition>)
    requires StoreInv(s)
    ensures BootLoop(s, models).Ok? ==> StoreInv(BootLoop(s, models).value)
    ensures BootLoop(s, models).Err? ==> DbInv(BootLoop(s, models).error.db)
    decreases |models|
  {
    if models != [] && CheckAndCreateTable(s.db, models[0]).Ok? {
      var s' := Store(CheckAndCreateTable(s.db, models[0]).value, s.files, RegisterModelRoutes(s.mounts, models[0]));
      BootLoopKeepsInv(s', models[1..]);
    }
  }

  /** The tables after booting `models` are those after booting its head,
      kept by booting its tail. */
  lemma BootTablesExtend(db: Db, models: seq<ModelDefinition>, mid: Db, out: Db)
    requires |models| > 0 && DdlTableName(models[0]) in mid.tables
    requires forall n :: n in db.tables ==> n in mid.tables && mid.tables[n] == db.tables[n]
    requires forall n :: n in mid.tables ==> n in out.tables && out.tables[n] == mid.tables[n]
    requires forall i :: 0 <= i < |models[1..]| ==> DdlTableName(models[1..][i]) in out.tables
    ensures forall i :: 0 <= i < |models| ==> DdlTableName(models[i]) in out.tables
    ensures forall n :: n in db.tables ==> n in out.tables && out.tables[n] == db.tables[n]
  {
    forall i | 0 <= i < |models|
      ensures DdlTableName(models[i]) in out.tables
    {
      if i > 0 {
        assert models[i] == models[1..][i - 1];
      }
    }
  }

  /** The mounts after booting `models` are the mounts after booting its
      head, followed by those of its tail. */
  lemma BootMountsExtend(base: seq<Mount>, models: seq<ModelDefinition>, mid: seq<Mount>, out: seq<Mount>)
    requires |models| > 0 && mid == RegisterModelRoutes(base, models[0])
    requires |out| == |mid| + |models[1..]| && out[..|mid|] == mid
    requires forall i :: 0 <= i < |models[1..]| ==> out[|mid| + i] == Mount(MountPath(models[1..][i]), models[1..][i])
    ensures |out| == |base| + |models| && out[..|base|] == base
    ensures forall i :: 0 <= i < |models| ==> out[|base| + i] == Mount(MountPath(models[i]), models[i])
  {
    assert out[..|base|] == mid[..|base|];
    forall i | 0 <= i < |models|
      ensures out[|base| + i] == Mount(MountPath(models[i]), models[i])
    {
      if i == 0 {
        assert out[|base|] == mid[|base|];
      } else {
        assert models[i] == models[1..][i - 1];
      }
    }
  }

  /** The table names a list of models reconciles, split at its head. */
  lemma TableNamesCons(models: seq<ModelDefinition>)
    requires models != []
    ensures (set i | 0 <= i < |models| :: DdlTableName(models[i])) ==
            {DdlTableName(models[0])} + set i | 0 <= i < |models[1..]| :: DdlTableName(models[1..][i])
  {
    var whole := set i | 0 <= i < |models| :: DdlTableName(models[i]);
    var tail := set i | 0 <= i < |models[1..]| :: DdlTableName(models[1..][i]);
    forall n | n in tail ensures n in whole {
      var j :| 0 <= j < |models[1..]| && n == DdlTableName(models[1..][j]);
      assert n == DdlTableName(models[j + 1]);
    }
    forall n | n in whole && n != DdlTableName(models[0]) ensures n in tail {
      var j :| 0 <= j < |models| && n == DdlTableName(models[j]);
      assert n == DdlTableName(models[1..][j - 1]);
    }
  }

  /** A successful boot adds exactly the loaded models' tables. */
  lemma {:induction false} BootAddsModelTables(s: Store, models: seq<ModelDefinition>)
    requires StoreInv(s)
    requires BootLoop(s, models).Ok?
    ensures BootLoop(s, models).value.db.tables.Keys == s.db.tables.Keys + set i | 0 <= i < |models| :: DdlTableName(models[i])
    decreases |models|
  {
    if models != [] {
      var db' := CheckAndCreateTable(s.db, models[0]).value;
      var s' := Store(db', s.files, RegisterModelRoutes(s.mounts, models[0]));
      BootAddsModelTables(s', models[1..]);
      TableNamesCons(models);
    }
  }

  /** A boot fails only because some loaded model's table is missing and
      could not be created. */
  lemma {:induction false} BootFailsOnlyOnMissingTable(s: Store, models: seq<ModelDefinition>)
    requires StoreInv(s)
    requires BootLoop(s, models).Err?
    ensures exists i :: 0 <= i < |models| && DdlTableName(models[i]) !in s.db.tables
    decreases |models|
  {
    assert models != [];
    if CheckAndCreateTable(s.db, models[0]).Err? {
      assert DdlTableName(models[0]) !in s.db.tables;
    } else {
      var db' := CheckAndCreateTable(s.db, models[0]).value;
      var s' := Store(db', s.files, RegisterModelRoutes(s.mounts, models[0]));
      BootFailsOnlyOnMissingTable(s', models[1..]);
      var j :| 0 <= j < |models[1..]| && DdlTableName(models[1..][j]) !in db'.tables;
      assert DdlTableName(models[j + 1]) !in s.db.tables;
    }
  }

  /** An ordinary reboot: with every loaded model's table present, the boot
      succeeds and leaves the database exactly as it was. */
  lemma {:induction false} RebootKeepsDatabase(s: Store, models: seq<ModelDefinition>)
    requires StoreInv(s)
    requires forall i :: 0 <= i < |models| ==> DdlTableName(models[i]) in s.db.tables
    ensures BootLoop(s, models).Ok?
    ensures BootLoop(s, models).value.db == s.db
    decreases |models|
  {
    if models != [] {
      assert forall i :: 1 <= i < |models| ==> models[i] == models[1..][i - 1];
      var s' := Store(s.db, s.files, RegisterModelRoutes(s.mounts, models[0]));
      RebootKeepsDatabase(s', models[1..]);
    }
  }

  /** Self-healing: when exactly one loaded model's table is missing and
      creating it succeeds, the boot succeeds, recreates that table and
      leaves every other table as it was. */
  lemma {:induction false} BootRecreatesMissingTable(s: Store, models: seq<ModelDefinition>, k: int)
    requires StoreInv(s)
    requires 0 <= k < |models|
    requires DdlTableName(models[k]) !in s.db.tables
    requires forall i :: 0 <= i < |models| && i != k ==> DdlTableName(models[i]) in s.db.tables
    requires CreateTableFromDefinition(s.db, models[k]).Ok?
    ensures BootLoop(s, models).Ok?
    ensures BootLoop(s, models).value.db == CreateTableFromDefinition(s.db, models[k]).value
    decreases |models|
  {
    assert forall i :: 1 <= i < |models| ==> models[i] == models[1..][i - 1];
    var s' := Store(CheckAndCreateTable(s.db, models[0]).value, s.files, RegisterModelRoutes(s.mounts, models[0]));
    if k == 0 {
      assert s'.db == CreateTableFromDefinition(s.db, models[0]).value;
      RebootKeepsDatabase(s', models[1..]);
    } else {
      assert s'.db == s.db;
      BootRecreatesMissingTable(s', models[1..], k - 1);
    }
  }

  /** A boot whose one missing table fails on a foreign key to a missing
      table ends in failure, yet leaves that table behind without the key, so
      the next boot from the same files succeeds without changing anything. */
  lemma {:induction false} RebootAfterDanglingKey(s: Store, models: seq<ModelDefinition>, k: int)
    requires StoreInv(s)
    requires 0 <= k < |models|
    requires DdlTableName(models[k]) !in s.db.tables
    requires forall i :: 0 <= i < |models| && i != k ==> DdlTableName(models[i]) in s.db.tables
    requires Columns(models[k]).Ok? && DistinctNames(Columns(models[k]).value)
    requires !RefsResolve(s.db, DdlTableName(models[k]), Columns(models[k]).value)
    ensures BootLoop(s, models).Err?
    ensures BootLoop(s, models).error.db == CreateTableFromDefinition(s.db, models[k]).error.db
    ensures var s' := Store(BootLoop(s, models).error.db, s.files, s.mounts);
            DdlTableName(models[k]) in s'.db.tables &&
            BootLoop(s', models).Ok? && BootLoop(s', models).value.db == s'.db
  {
    FirstBootFailsAtDanglingKey(s, models, k);
    var db1 := CreateTableFromDefinition(s.db, models[k]).error.db;
    RebootKeepsDatabase(Store(db1, s.files, s.mounts), models);
  }

  /** The failing half of `RebootAfterDanglingKey`: every table before the
      missing one is present, so the failure is that one table's. */
  lemma {:induction false} FirstBootFailsAtDanglingKey(s: Store, models: seq<ModelDefinition>, k: int)
    requires StoreInv(s)
    requires 0 <= k < |models|
    requires DdlTableName(models[k]) !in s.db.tables
    requires forall i :: 0 <= i < k ==> DdlTableName(models[i]) in s.db.tables
    requires Columns(models[k]).Ok? && DistinctNames(Columns(models[k]).value)
    requires !RefsResolve(s.db, DdlTableName(models[k]), Columns(models[k]).value)
    ensures BootLoop(s, models).Err?
    ensures BootLoop(s, models).error.db == CreateTableFromDefinition(s.db, models[k]).error.db
    decreases |models|
  {
    if k > 0 {
      assert forall i :: 1 <= i < |models| ==> models[i] == models[1..][i - 1];
      var s' := Store(s.db, s.files, RegisterModelRoutes(s.mounts, models[0]));
      FirstBootFailsAtDanglingKey(s', models[1..], k - 1);
    }
  }

  /** `startServer`: load the definitions, then reconcile and mount each.
      One unreadable definition loads nothing, so the boot mounts nothing and
      touches no table; when every definition reads, a successful boot serves
      each of them and holds its table; every new mount is a definition of
      the directory. */
  function Boot(s: Store, listing: seq<string>): (r: Result<Store, Failure>)
    requires StoreInv(s) && ListingOf(s.files, listing)
    ensures (exists f :: f in s.files && IsJson(f) && s.files[f].Unreadable?) ==> r == Ok(s)
    ensures r.Ok? && (forall f :: f in s.files && IsJson(f) ==> s.files[f].Parsed?) ==>
              forall f :: f in s.files && IsJson(f) ==>
                DdlTableName(s.files[f].def) in r.value.db.tables &&
                Mount(MountPath(s.files[f].def), s.files[f].def) in r.value.mounts
    ensures r.Ok? ==> forall k :: |s.mounts| <= k < |r.value.mounts| ==>
              exists f :: f in s.files && IsJson(f) && s.files[f] == Parsed(r.value.mounts[k].model)
  {
    var models := LoadModels(s.files, listing);
    var r := BootLoop(s, models);
    BootMountsFromDirectory(s, listing);
    if r.Ok? && forall f :: f in s.files && IsJson(f) ==> s.files[f].Parsed? then
      BootServesEveryModel(s, listing);
      r
    else r
  }

  /** Part of `Boot`'s contract: an unreadable definition makes the boot a
      no-op, and each new mount serves a definition of the directory. */
  lemma BootMountsFromDirectory(s: Store, listing: seq<string>)
    requires StoreInv(s) && ListingOf(s.files, listing)
    ensures (exists f :: f in s.files && IsJson(f) && s.files[f].Unreadable?) ==>
              BootLoop(s, LoadModels(s.files, listing)) == Ok(s)
    ensures var r := BootLoop(s, LoadModels(s.files, listing));
            r.Ok? ==> forall k :: |s.mounts| <= k < |r.value.mounts| ==>
              exists f :: f in s.files && IsJson(f) && s.files[f] == Parsed(r.value.mounts[k].model)
  {
    var models := LoadModels(s.files, listing);
    var r := BootLoop(s, models);
    if exists f :: f in s.files && IsJson(f) && s.files[f].Unreadable? {
      var bad :| bad in s.files && IsJson(bad) && s.files[bad].Unreadable?;
      OneBadFileEmptiesLoad(s.files, listing, bad);
    } else if r.Ok? {
      forall k | |s.mounts| <= k < |r.value.mounts|
        ensures exists f :: f in s.files && IsJson(f) && s.files[f] == Parsed(r.value.mounts[k].model)
      {
        BootMountFromDirectory(s, listing, k);
      }
    }
  }

  lemma BootMountFromDirectory(s: Store, listing: seq<string>, k: int)
    requires StoreInv(s) && ListingOf(s.files, listing)
    requires BootLoop(s, LoadModels(s.files, listing)).Ok?
    requires |s.mounts| <= k < |BootLoop(s, LoadModels(s.files, listing)).value.mounts|
    ensures exists f :: f in s.files && IsJson(f) &&
              s.files[f] == Parsed(BootLoop(s, LoadModels(s.files, listing)).value.mounts[k].model)
  {
    BootMountsModel(s, LoadModels(s.files, listing), k);
  }

  /** Each mount a boot adds serves one of the booted definitions. */
  lemma BootMountsModel(s: Store, models: seq<ModelDefinition>, k: int)
    requires StoreInv(s) && BootLoop(s, models).Ok?
    requires |s.mounts| <= k < |BootLoop(s, models).value.mounts|
    ensures BootLoop(s, models).value.mounts[k].model in models
  {
    var i := k - |s.mounts|;
    assert BootLoop(s, models).value.mounts[|s.mounts| + i] == Mount(MountPath(models[i]), models[i]);
  }

  /** Part of `Boot`'s contract: when every definition reads, a successful
      boot serves each of them and holds its table. */
  lemma BootServesEveryModel(s: Store, listing: seq<string>)
    requires StoreInv(s) && ListingOf(s.files, listing)
    requires forall f :: f in s.files && IsJson(f) ==> s.files[f].Parsed?
    requires BootLoop(s, LoadModels(s.files, listing)).Ok?
    ensures var r := BootLoop(s, LoadModels(s.files, listing));
            forall f :: f in s.files && IsJson(f) ==>
              DdlTableName(s.files[f].def) in r.value.db.tables &&
              Mount(MountPath(s.files[f].def), s.files[f].def) in r.value.mounts
  {
    var models := LoadModels(s.files, listing);
    var r := BootLoop(s, models);
    forall f | f in s.files && IsJson(f)
      ensures DdlTableName(s.files[f].def) in r.value.db.tables &&
              Mount(MountPath(s.files[f].def), s.files[f].def) in r.value.mounts
    {
      LoadedIncludes(s.files, listing, f);
      var j :| 0 <= j < |models| && models[j] == s.files[f].def;
      BootServesModel(s, models, j);
    }
  }

  /** A successful boot mounts each booted definition and holds its table. */
  lemma BootServesModel(s: Store, models: seq<ModelDefinition>, j: int)
    requires BootLoop(s, models).Ok? && 0 <= j < |models|
    ensures DdlTableName(models[j]) in BootLoop(s, models).value.db.tables
    ensures Mount(MountPath(models[j]), models[j]) in BootLoop(s, models).value.mounts
  {
    assert BootLoop(s, models).value.mounts[|s.mounts| + j] == Mount(MountPath(models[j]), models[j]);
  }

  /** A request to a generated router. */
  datatype CrudRequest =
    | CreateRequest(body: Payload)
    | ListRequest
    | GetRequest(id: int)
    | UpdateRequest(id: int, body: Payload)
    | DeleteRequest(id: int)

  /** The framework's fall-through answer when no mount matches. */
  const NoRoute := Reply(404, Message("Cannot find a route"))

  /** A request to `path`: the first matching mount's router, behind `protect`. */
  function HandleCrud(s: Store, path: string, auth: Auth, req: CrudRequest, co: Coercion): (r: Step)
    requires StoreInv(s)
    ensures StoreInv(r.store)
    ensures r.store.files == s.files && r.store.mounts == s.mounts
    ensures Dispatch(s.mounts, path).None? ==> r == Step(NoRoute, s)
    ensures Dispatch(s.mounts, path).Some? && Protect(auth.header, auth.verify).Stop? ==>
              r == Step(Protect(auth.header, auth.verify).response, s)
    ensures Dispatch(s.mounts, path).Some? && Protect(auth.header, auth.verify).Pass? && req.CreateRequest? ==>
              var o := CreateItem(Dispatch(s.mounts, path).value, s.db, Some(Protect(auth.header, auth.verify).value), req.body, co);
              r.response == o.response && r.store.db == o.db
    ensures Dispatch(s.mounts, path).Some? && Protect(auth.header, auth.verify).Pass? && req.ListRequest? ==>
              var o := ListItems(Dispatch(s.mounts, path).value, s.db, Some(Protect(auth.header, auth.verify).value));
              r.response == o.response && r.store.db == o.db
    ensures Dispatch(s.mounts, path).Some? && Protect(auth.header, auth.verify).Pass? && req.GetRequest? ==>
              var o := GetItem(Dispatch(s.mounts, path).value, s.db, Some(Protect(auth.header, auth.verify).value), req.id);
              r.response == o.response && r.store.db == o.db
    ensures Dispatch(s.mounts, path).Some? && Protect(auth.header, auth.verify).Pass? && req.UpdateRequest? ==>
              var o := UpdateItem(Dispatch(s.mounts, path).value, s.db, Some(Protect(auth.header, auth.verify).value), req.id, req.body, co);
              r.response == o.response && r.store.db == o.db
    ensures Dispatch(s.mounts, path).Some? && Protect(auth.header, auth.verify).Pass? && req.DeleteRequest? ==>
              var o := DeleteItem(Dispatch(s.mounts, path).value, s.db, Some(Protect(auth.header, auth.verify).value), req.id);
              r.response == o.response && r.store.db == o.db
  {
    match Dispatch(s.mounts, path)
    case None => Step(NoRoute, s)
    case Some(m) =>
      match Protect(auth.header, auth.verify)
      case Stop(resp) => Step(resp, s)
      case Pass(p) =>
        var o := match req
          case CreateRequest(body) => CreateItem(m, s.db, Some(p), body, co)
          case ListRequest => ListItems(m, s.db, Some(p))
          case GetRequest(id) => GetItem(m, s.db, Some(p), id)
          case UpdateRequest(id, body) => UpdateItem(m, s.db, Some(p), id, body, co)
          case DeleteRequest(id) => DeleteItem(m, s.db, Some(p), id);
        Step(o.response, Store(o.db, s.files, s.mounts))
  }

  // ---- How the three table-name derivations meet ----

  /** Publishing a model that overrides `tableName` creates the lower-cased
      table while its router uses the override: as long as no table by the
      override's name exists, creating an item through the router is a 500. */
  lemma OverrideMissesPublishedTable(s: Store, auth: Auth, m: ModelDefinition, p: Principal, body: Payload, co: Coercion)
    requires StoreInv(s)
    requires Truthy(m.tableName) && m.tableName.value != Lower(m.name) && m.tableName.value !in s.db.tables
    requires Publish(s, auth, m).response == Published
    requires CheckRbac(m, Some(p), Create).Pass? && Validate(m, body, co).None?
    ensures CreateItem(m, Publish(s, auth, m).store.db, Some(p), body, co).response == Reply(500, Message("Error creating item"))
    ensures DdlTableName(m) in Publish(s, auth, m).store.db.tables
  {
  }

  /** Without an override the three derivations agree. */
  lemma TableNamesAgreeWithoutOverride(m: ModelDefinition)
    requires !Truthy(m.tableName)
    ensures CrudTableName(m) == DdlTableName(m)
    ensures MountPath(m) == "/api/" + CrudTableName(m)
  {
  }

  /** Deleting a model whose definition overrides `tableName` drops the
      override's table and leaves the table publish created in place. */
  lemma DeleteWithOverrideLeavesTable(s: Store, auth: Auth, modelName: string, unlinkFails: bool)
    requires StoreInv(s)
    requires Loadable(s.files, FileName(modelName))
    requires Truthy(s.files[FileName(modelName)].def.tableName)
    requires s.files[FileName(modelName)].def.tableName.value != Lower(modelName)
    requires Lower(modelName) in s.db.tables
    requires DeleteModel(s, auth, modelName, unlinkFails).response.Reply? && DeleteModel(s, auth, modelName, unlinkFails).response.status == 200
    ensures Lower(modelName) in DeleteModel(s, auth, modelName, unlinkFails).store.db.tables
  {
  }

  /** Deleting a model leaves its router mounted: a later list request still
      reaches the model's handlers, which find no table and reject uncaught. */
  lemma DeletedModelStillRouted(s: Store, auth: Auth, modelName: string, unlinkFails: bool, path: string, m: ModelDefinition, reader: Auth, co: Coercion)
    requires StoreInv(s)
    requires DeleteModel(s, auth, modelName, unlinkFails).response.Reply? && DeleteModel(s, auth, modelName, unlinkFails).response.status == 200
    requires Dispatch(s.mounts, path) == Some(m) && CrudTableName(m) == DropTarget(s.files, modelName)
    requires Protect(reader.header, reader.verify).Pass? && CheckRbac(m, Some(Protect(reader.header, reader.verify).value), Read).Pass?
    ensures HandleCrud(DeleteModel(s, auth, modelName, unlinkFails).store, path, reader, ListRequest, co).response == Unhandled
  {
  }

  /** Deleting by a name whose case differs from the published one drops the
      table but cannot find the file, so the next boot creates the table
      again and mounts the model. */
  lemma DeleteByOtherCaseIsUndone(s: Store, auth: Auth, m: ModelDefinition, alias: string, listing: seq<string>)
    requires StoreInv(s)
    requires ValidModelName(alias) && alias != m.name && Lower(alias) == Lower(m.name)
    requires s.files == map[FileName(m.name) := Parsed(m)]
    requires listing == [FileName(m.name)]
    requires DeleteModel(s, auth, alias, false).response.Reply? && DeleteModel(s, auth, alias, false).response.status == 200
    requires Columns(m).Ok? && DistinctNames(Columns(m).value) && RefsResolve(s.db, DdlTableName(m), Columns(m).value)
    ensures var s' := DeleteModel(s, auth, alias, false).store;
            DdlTableName(m) !in s'.db.tables && ListingOf(s'.files, listing) &&
            Boot(s', listing).Ok? && DdlTableName(m) in Boot(s', listing).value.db.tables &&
            Boot(s', listing).value.mounts == s.mounts + [Mount(MountPath(m), m)]
  {
    DeleteByOtherCaseReloads(s, auth, m, alias, listing);
  }

  /** The store-level facts behind `DeleteByOtherCaseIsUndone`. */
  lemma DeleteByOtherCaseReloads(s: Store, auth: Auth, m: ModelDefinition, alias: string, listing: seq<string>)
    requires StoreInv(s)
    requires ValidModelName(alias) && alias != m.name && Lower(alias) == Lower(m.name)
    requires s.files == map[FileName(m.name) := Parsed(m)]
    requires listing == [FileName(m.name)]
    requires DeleteModel(s, auth, alias, false).response.Reply? && DeleteModel(s, auth, alias, false).response.status == 200
    requires Columns(m).Ok? && DistinctNames(Columns(m).value) && RefsResolve(s.db, DdlTableName(m), Columns(m).value)
    ensures var s' := DeleteModel(s, auth, alias, false).store;
            DdlTableName(m) !in s'.db.tables && ListingOf(s'.files, listing) &&
            BootLoop(s', LoadModels(s'.files, listing)).Ok? && DdlTableName(m) in BootLoop(s', LoadModels(s'.files, listing)).value.db.tables &&
            BootLoop(s', LoadModels(s'.files, listing)).value.mounts == s.mounts + [Mount(MountPath(m), m)]
  {
    var s' := DeleteModel(s, auth, alias, false).store;
    DeleteByOtherCaseKeepsFile(s, auth, m, alias, listing);
    BootSingleModel(s', m);
  }

  /** Deleting by another case of the name drops the table but keeps the
      file, which still loads. */
  lemma DeleteByOtherCaseKeepsFile(s: Store, auth: Auth, m: ModelDefinition, alias: string, listing: seq<string>)
    requires StoreInv(s)
    requires ValidModelName(alias) && alias != m.name && Lower(alias) == Lower(m.name)
    requires s.files == map[FileName(m.name) := Parsed(m)]
    requires listing == [FileName(m.name)]
    requires DeleteModel(s, auth, alias, false).response.Reply? && DeleteModel(s, auth, alias, false).response.status == 200
    requires Columns(m).Ok? && RefsResolve(s.db, DdlTableName(m), Columns(m).value)
    ensures var s' := DeleteModel(s, auth, alias, false).store;
            StoreInv(s') && s'.mounts == s.mounts && DdlTableName(m) !in s'.db.tables &&
            ListingOf(s'.files, listing) && LoadModels(s'.files, listing) == [m] &&
            RefsResolve(s'.db, DdlTableName(m), Columns(m).value)
  {
    var s' := DeleteModel(s, auth, alias, false).store;
    OtherCaseOtherFile(alias, m.name);
    assert s'.files == s.files;
    assert DropTarget(s.files, alias) == DdlTableName(m);
    LoadSingleDefinition(s.files, m);
  }

  /** Two different names have different definition files, and each is a
      `.json` file. */
  lemma OtherCaseOtherFile(alias: string, name: string)
    requires alias != name
    ensures FileName(alias) != FileName(name) && IsJson(FileName(name))
  {
    assert FileName(alias)[..|alias|] == alias;
    if |alias| == |name| {
      assert FileName(name)[..|name|] == name;
    }
    assert FileName(name)[|FileName(name)| - 5..] == ".json";
  }

  /** A directory holding one definition file loads exactly that definition. */
  lemma LoadSingleDefinition(files: ModelFiles, m: ModelDefinition)
    requires files == map[FileName(m.name) := Parsed(m)] && IsJson(FileName(m.name))
    ensures ListingOf(files, [FileName(m.name)]) && LoadModels(files, [FileName(m.name)]) == [m]
  {
    assert files.Keys == {FileName(m.name)};
    assert LoadFrom(files, [FileName(m.name)][1..]) == Some([]);
  }

  /** Booting a single definition whose table is missing and can be created
      creates it and mounts the definition. */
  lemma BootSingleModel(s: Store, m: ModelDefinition)
    requires StoreInv(s) && DdlTableName(m) !in s.db.tables
    requires Columns(m).Ok? && DistinctNames(Columns(m).value) && RefsResolve(s.db, DdlTableName(m), Columns(m).value)
    ensures BootLoop(s, [m]).Ok? && DdlTableName(m) in BootLoop(s, [m]).value.db.tables
    ensures BootLoop(s, [m]).value.mounts == s.mounts + [Mount(MountPath(m), m)]
  {
    var db2 := CheckAndCreateTable(s.db, m);
    assert db2.Ok?;
    var s2 := Store(db2.value, s.files, RegisterModelRoutes(s.mounts, m));
    assert BootEach(s2, []) == Ok(s2);
    assert BootEach(s, [m]) == Ok(s2);
  }

  /** A model declaring a `float` field: the validator checks the field's
      values, but the table gets no column for it, and declaring it required
      makes publishing fail. */
  lemma FloatValidatedButNotStored(m: ModelDefinition, i: int, data: Payload, co: Coercion)
    requires 0 <= i < |m.fields| && m.fields[i].ftype == FloatType
    requires forall j :: 0 <= j < |m.fields| && j != i ==> m.fields[j].name != m.fields[i].name
    requires m.fields[i].name !in {"id", "created_at", "updated_at"}
    requires !(Truthy(m.ownerField) && m.ownerField.value == m.fields[i].name)
    requires m.fields[i].name in data && !IsEmpty(Some(data[m.fields[i].name])) && !co.float(data[m.fields[i].name])
    ensures CheckField(m.fields[i], data, co) == Some(FloatMessage(m.fields[i].name))
    ensures Validate(m, data, co).Some?
    ensures !m.fields[i].required ==> Columns(m).Ok? ==> forall c :: c in Columns(m).value ==> c.name != m.fields[i].name
    ensures m.fields[i].required ==> Columns(m).Err?
  {
    if !m.fields[i].required {
      UnmappedFieldHasNoColumn(m, i);
    }
  }
}

=== FILE: auth_controller.dfy ===
/** The account handlers: registration, login, and the password-reset token
    cycle. Hashing, hash comparison, token signing and random token
    generation are parameters; the clock is a parameter `now` in
    milliseconds. */
module AuthController {
  import opened Common
  import opened Definitions
  import opened EmailPattern

  /** A row of the `users` table. */
  datatype User = User(
    id: int,
    email: string,
    password: string,
    role: string,
    resetToken: Option<string>,
    resetTokenExpiry: Option<int>)

  /** The `users` table in insertion order, with the next id its sequence gives. */
  datatype Users = Users(rows: seq<User>, nextId: int)

  /** The unique constraint on `email`, the primary key on `id`, and ids
      drawn from the sequence. */
  predicate UsersInv(u: Users) {
    && (forall i, j :: 0 <= i < j < |u.rows| ==> u.rows[i].email != u.rows[j].email)
    && (forall i, j :: 0 <= i < j < |u.rows| ==> u.rows[i].id != u.rows[j].id)
    && (forall i :: 0 <= i < |u.rows| ==> u.rows[i].id < u.nextId)
  }

  const Roles := ["Admin", "Manager", "Viewer"]

  /** The stored role: the requested one if it is a known role, else `Viewer`. */
  function NormaliseRole(role: Option<string>): (r: string)
    ensures r in Roles
    ensures role.Some? && role.value in Roles ==> r == role.value
    ensures (role.None? || role.value !in Roles) ==> r == "Viewer"
  {
    if role.Some? && role.value in Roles then role.value else "Viewer"
  }

  const MinPasswordLength := 6

  /** The fixed replies of the handlers. */
  const MissingCredentials := Reply(400, Message("Email and password are required."))
  const BadEmailFormat := Reply(400, Message("Invalid email format."))
  const EmailExists := Reply(409, Message("Email already exists."))
  const InvalidCredentials := Reply(401, Message("Invalid credentials."))
  const ResetLinkSent := Reply(200, Message("A password reset link has been sent to your email."))
  const EmailNotRegistered := Reply(404, Message("Email is not registered."))
  const MailFailed := Reply(200, Message("An internal server error occurred."))
  const ResetTokenAccepted := Reply(200, Message("Token is valid."))
  const ResetTokenRefused := Reply(400, Message("Token is invalid or has expired."))
  const ShortPassword := Reply(400, Message("Password must be at least 6 characters long."))
  const BadResetToken := Reply(400, Message("Token is invalid or has expired. Please request a new link."))
  const PasswordReset := Reply(200, Message("Password has been reset successfully."))

  predicate EmailTaken(u: Users, email: string) {
    exists i :: 0 <= i < |u.rows| && u.rows[i].email == email
  }

  /** `register`: the three input checks, then the insert; a duplicate e-mail
      violates the unique constraint (code 23505), which is a 409. The insert
      draws its id from the sequence before the constraint fails it, so a
      refused insert still uses up one id. */
  function Register(u: Users, email: Option<string>, password: Option<string>, role: Option<string>,
                    hash: string -> string): (r: (Response, Users))
    requires UsersInv(u)
    ensures UsersInv(r.1)
    ensures (!Truthy(email) || !Truthy(password)) ==> r == (MissingCredentials, u)
    ensures Truthy(email) && Truthy(password) && !EmailShape(email.value) ==>
              r == (BadEmailFormat, u)
    ensures Truthy(email) && Truthy(password) && EmailShape(email.value) && |password.value| < MinPasswordLength ==>
              r == (ShortPassword, u)
    ensures r.0.Reply? && r.0.status == 409 <==>
              Truthy(email) && Truthy(password) && EmailShape(email.value) && |password.value| >= MinPasswordLength &&
              EmailTaken(u, email.value)
    ensures r.0.Reply? && r.0.status == 201 <==>
              Truthy(email) && Truthy(password) && EmailShape(email.value) && |password.value| >= MinPasswordLength &&
              !EmailTaken(u, email.value)
    ensures r.0.Reply? && r.0.status == 201 ==>
              r.1.rows == u.rows + [User(u.nextId, email.value, hash(password.value), NormaliseRole(role), None, None)] &&
              r.0.body == Account(u.nextId, email.value, NormaliseRole(role))
    ensures r.0.Reply? && r.0.status == 409 ==> r.1 == Users(u.rows, u.nextId + 1)
    ensures !(r.0.Reply? && (r.0.status == 201 || r.0.status == 409)) ==> r.1 == u
  {
    if !Truthy(email) || !Truthy(password) then (MissingCredentials, u)
    else if !EmailShape(email.value) then (BadEmailFormat, u)
    else if |password.value| < MinPasswordLength then (ShortPassword, u)
    else if EmailTaken(u, email.value) then (EmailExists, Users(u.rows, u.nextId + 1))
    else
      var user := User(u.nextId, email.value, hash(password.value), NormaliseRole(role), None, None);
      (Reply(201, Account(user.id, user.email, user.role)), Users(u.rows + [user], u.nextId + 1))
  }

  /** `.where(...).first()`: the first row satisfying a condition. */
  function FindByEmail(rows: seq<User>, email: string): (r: Option<nat>)
    ensures r.Some? ==> r.value < |rows| && rows[r.value].email == email &&
                        forall j :: 0 <= j < r.value ==> rows[j].email != email
    ensures r.None? ==> forall j :: 0 <= j < |rows| ==> rows[j].email != email
  {
    if rows == [] then None
    else if rows[0].email == email then Some(0)
    else match FindByEmail(rows[1..], email)
      case None => None
      case Some(k) => Some(k + 1)
  }

  /** `login`: both credentials present, a user with that e-mail, a matching
      password; then a signed token for the user's id and role. */
  function Login(u: Users, email: Option<string>, password: Option<string>,
                 matches: (string, string) -> bool, sign: (int, string) -> string): (r: Response)
    ensures (!Truthy(email) || !Truthy(password)) ==> r == MissingCredentials
    ensures r.Reply? && r.status == 200 <==>
              Truthy(email) && Truthy(password) &&
              exists i :: 0 <= i < |u.rows| && u.rows[i].email == email.value &&
                          (forall j :: 0 <= j < i ==> u.rows[j].email != email.value) &&
                          matches(password.value, u.rows[i].password)
    ensures r.Reply? && r.status == 200 ==>
              exists i :: 0 <= i < |u.rows| && u.rows[i].email == email.value &&
                          r.body == Session(sign(u.rows[i].id, u.rows[i].role), u.rows[i].id, u.rows[i].email, u.rows[i].role)
    ensures r.Reply? && r.status != 200 && Truthy(email) && Truthy(password) ==> r == InvalidCredentials
  {
    if !Truthy(email) || !Truthy(password) then MissingCredentials
    else
      match FindByEmail(u.rows, email.value)
      case None => InvalidCredentials
      case Some(k) =>
        var user := u.rows[k];
        if !matches(password.value, user.password) then InvalidCredentials
        else Reply(200, Session(sign(user.id, user.role), user.id, user.email, user.role))
  }

  /** A freshly registered account can log in with the password it registered
      with, when the password check accepts what the hash produced. */
  lemma RegisterThenLogin(u: Users, email: string, password: string, role: Option<string>,
                          hash: string -> string, matches: (string, string) -> bool, sign: (int, string) -> string)
    requires UsersInv(u)
    requires forall pw :: matches(pw, hash(pw))
    requires Register(u, Some(email), Some(password), role, hash).0.Reply? && Register(u, Some(email), Some(password), role, hash).0.status == 201
    ensures var u' := Register(u, Some(email), Some(password), role, hash).1;
            Login(u', Some(email), Some(password), matches, sign) ==
              Reply(200, Session(sign(u.nextId, NormaliseRole(role)), u.nextId, email, NormaliseRole(role)))
  {
    var u' := Register(u, Some(email), Some(password), role, hash).1;
    var k := |u.rows|;
    assert u'.rows[k].email == email;
    assert forall j :: 0 <= j < k ==> u'.rows[j].email != email by {
      forall j | 0 <= j < k ensures u'.rows[j].email != email {
        assert u'.rows[j] == u.rows[j];
      }
    }
    assert FindByEmail(u'.rows, email) == Some(k);
  }

  /** A reset token's lifetime: one hour, in milliseconds. */
  const ResetTokenLifetime := 3600000

  /** `forgotPassword`: an unknown e-mail is a 404; otherwise the user gets the
      fresh token, expiring one hour from now. A missing e-mail makes the
      query builder throw, which the catch answers with a 200. */
  function ForgotPassword(u: Users, email: Option<string>, now: int, token: string): (r: (Response, Users))
    requires UsersInv(u)
    ensures UsersInv(r.1)
    ensures email.None? ==> r == (MailFailed, u)
    ensures email.Some? && !EmailTaken(u, email.value) ==> r == (EmailNotRegistered, u)
    ensures email.Some? && EmailTaken(u, email.value) ==>
              r.0 == ResetLinkSent &&
              |r.1.rows| == |u.rows| && r.1.nextId == u.nextId &&
              exists k :: 0 <= k < |u.rows| && u.rows[k].email == email.value &&
                r.1.rows == u.rows[k := u.rows[k].(resetToken := Some(token), resetTokenExpiry := Some(now + ResetTokenLifetime))]
  {
    if email.None? then (MailFailed, u)
    else
      match FindByEmail(u.rows, email.value)
      case None => (EmailNotRegistered, u)
      case Some(k) =>
        var user' := u.rows[k].(resetToken := Some(token), resetTokenExpiry := Some(now + ResetTokenLifetime));
        (ResetLinkSent, Users(u.rows[k := user'], u.nextId))
  }

  /** The query both token handlers run: the stored token matches and its
      expiry lies strictly after now. */
  predicate TokenValid(user: User, token: string, now: int) {
    user.resetToken == Some(token) && user.resetTokenExpiry.Some? && user.resetTokenExpiry.value > now
  }

  function FindByToken(rows: seq<User>, token: string, now: int): (r: Option<nat>)
    ensures r.Some? ==> r.value < |rows| && TokenValid(rows[r.value], token, now) &&
                        forall j :: 0 <= j < r.value ==> !TokenValid(rows[j], token, now)
    ensures r.None? ==> forall j :: 0 <= j < |rows| ==> !TokenValid(rows[j], token, now)
  {
    if rows == [] then None
    else if TokenValid(rows[0], token, now) then Some(0)
    else match FindByToken(rows[1..], token, now)
      case None => None
      case Some(k) => Some(k + 1)
  }

  /** `verifyResetToken`. */
  function VerifyResetToken(u: Users, token: string, now: int): (r: Response)
    ensures r == ResetTokenAccepted <==>
              exists i :: 0 <= i < |u.rows| && TokenValid(u.rows[i], token, now)
    ensures r != ResetTokenAccepted ==> r == ResetTokenRefused
  {
    if FindByToken(u.rows, token, now).None? then ResetTokenRefused
    else ResetTokenAccepted
  }

  /** `resetPassword`: the length check first, then the token query, then the
      new hash with both token columns cleared. */
  function ResetPassword(u: Users, token: string, password: Option<string>, now: int, hash: string -> string): (r: (Response, Users))
    requires UsersInv(u)
    ensures UsersInv(r.1)
    ensures (!Truthy(password) || |password.value| < MinPasswordLength) ==>
              r == (ShortPassword, u)
    ensures Truthy(password) && |password.value| >= MinPasswordLength &&
            (forall i :: 0 <= i < |u.rows| ==> !TokenValid(u.rows[i], token, now)) ==>
              r == (BadResetToken, u)
    ensures r.0 == PasswordReset <==>
              Truthy(password) && |password.value| >= MinPasswordLength &&
              exists i :: 0 <= i < |u.rows| && TokenValid(u.rows[i], token, now)
    ensures r.0 != PasswordReset ==> r.1 == u
    ensures r.0 == PasswordReset ==>
              |r.1.rows| == |u.rows| && r.1.nextId == u.nextId &&
              exists k :: 0 <= k < |u.rows| && TokenValid(u.rows[k], token, now) &&
                r.1.rows == u.rows[k := u.rows[k].(password := hash(password.value), resetToken := None, resetTokenExpiry := None)]
  {
    if !Truthy(password) || |password.value| < MinPasswordLength then
      (ShortPassword, u)
    else
      match FindByToken(u.rows, token, now)
      case None => (BadResetToken, u)
      case Some(k) =>
        var user' := u.rows[k].(password := hash(password.value), resetToken := None, resetTokenExpiry := None);
        ReplaceRowKeepsInv(u, k, user');
        (PasswordReset, Users(u.rows[k := user'], u.nextId))
  }

  /** Rewriting a user's row without touching its email or id keeps the
      invariant. */
  lemma ReplaceRowKeepsInv(u: Users, k: int, user': User)
    requires UsersInv(u) && 0 <= k < |u.rows|
    requires user'.email == u.rows[k].email && user'.id == u.rows[k].id
    ensures UsersInv(Users(u.rows[k := user'], u.nextId))
  {
  }

  /** A token handed out by `forgotPassword` verifies until, and not at, one
      hour after it was issued. */
  lemma ForgotThenVerify(u: Users, email: string, now: int, token: string, later: int)
    requires UsersInv(u) && EmailTaken(u, email)
    requires later < now + ResetTokenLifetime
    ensures VerifyResetToken(ForgotPassword(u, Some(email), now, token).1, token, later) == ResetTokenAccepted
  {
    var u' := ForgotPassword(u, Some(email), now, token).1;
    var k :| 0 <= k < |u.rows| && u.rows[k].email == email &&
             u'.rows == u.rows[k := u.rows[k].(resetToken := Some(token), resetTokenExpiry := Some(now + ResetTokenLifetime))];
    assert TokenValid(u'.rows[k], token, later);
  }

  /** After a successful reset the token is spent: the reset user no longer
      holds it, and when no other user holds the same token, no request with
      it verifies at any time. */
  lemma ResetSpendsToken(u: Users, token: string, password: string, now: int, hash: string -> string, later: int)
    requires UsersInv(u)
    requires ResetPassword(u, token, Some(password), now, hash).0 == PasswordReset
    requires forall i, j :: 0 <= i < j < |u.rows| && u.rows[i].resetToken == Some(token) ==> u.rows[j].resetToken != Some(token)
    ensures VerifyResetToken(ResetPassword(u, token, Some(password), now, hash).1, token, later) ==
            ResetTokenRefused
  {
    var u' := ResetPassword(u, token, Some(password), now, hash).1;
    var k :| 0 <= k < |u.rows| && TokenValid(u.rows[k], token, now) &&
             u'.rows == u.rows[k := u.rows[k].(password := hash(password), resetToken := None, resetTokenExpiry := None)];
    forall i | 0 <= i < |u'.rows|
      ensures !TokenValid(u'.rows[i], token, later)
    {
      if i != k {
        assert u'.rows[i] == u.rows[i];
        if i < k {
          assert u.rows[i].resetToken != Some(token);
        } else {
          assert u.rows[k].resetToken == Some(token);
        }
      }
    }
  }

  /** The reset page and the reset form agree: with an acceptable password,
      the reset succeeds exactly when the token verifies. */
  lemma ResetAgreesWithVerify(u: Users, token: string, password: string, now: int, hash: string -> string)
    requires UsersInv(u) && |password| >= MinPasswordLength
    ensures ResetPassword(u, token, Some(password), now, hash).0 == PasswordReset <==>
            VerifyResetToken(u, token, now) == ResetTokenAccepted
  {
  }
}

=== FILE: auth_middleware.dfy ===
/** The authentication middleware: `protect` extracts a bearer token and has
    it verified; `authorize` admits only the listed roles. Token verification
    is a parameter: the model does not look inside the token. */
module AuthMiddleware {
  import opened Common
  import opened Definitions

  const BearerPrefix := "Bearer "

  /** The text before the first space: `split(' ')[0]`. */
  function UntilSpace(s: string): (r: string)
    ensures |r| <= |s| && r == s[..|r|]
    ensures ' ' !in r
    ensures |r| < |s| ==> s[|r|] == ' '
  {
    if s == [] || s[0] == ' ' then [] else [s[0]] + UntilSpace(s[1..])
  }

  /** `authHeader.split(' ')[1]` for a header starting with `Bearer `: the
      second space-separated segment, which may be empty. */
  function ExtractToken(header: Option<string>): (r: Option<string>)
    ensures r.Some? <==> header.Some? && StartsWith(header.value, BearerPrefix)
    ensures r.Some? ==> ' ' !in r.value
    ensures r.Some? ==> exists rest :: header.value == BearerPrefix + r.value + rest && (rest == [] || rest[0] == ' ')
  {
    if header.Some? && StartsWith(header.value, BearerPrefix) then
      var h := header.value;
      var token := UntilSpace(h[|BearerPrefix|..]);
      var rest := h[|BearerPrefix| + |token|..];
      assert h == BearerPrefix + token + rest;
      Some(token)
    else None
  }

  /** The header a client sends for a token. */
  function BearerHeader(token: string): string {
    BearerPrefix + token
  }

  /** Extracting from a well-formed header gives the token back. */
  lemma ExtractRoundTrip(token: string, rest: string)
    requires ' ' !in token
    requires rest == [] || rest[0] == ' '
    ensures ExtractToken(Some(BearerHeader(token) + rest)) == Some(token)
  {
    var h := BearerHeader(token) + rest;
    assert h[..|BearerPrefix|] == BearerPrefix;
    assert h[|BearerPrefix|..] == token + rest;
    UntilSpaceOfJoin(token, rest);
  }

  lemma {:induction false} UntilSpaceOfJoin(token: string, rest: string)
    requires ' ' !in token
    requires rest == [] || rest[0] == ' '
    ensures UntilSpace(token + rest) == token
  {
    if token != [] {
      assert (token + rest)[1..] == token[1..] + rest;
      UntilSpaceOfJoin(token[1..], rest);
    }
  }

  const NoToken := Reply(401, Message("Not authorized, no token"))
  const TokenFailed := Reply(401, Message("Not authorized, token failed"))

  /** `protect`: a missing or empty token and a token that does not verify are
      both 401; otherwise the decoded principal is passed on. */
  function Protect(header: Option<string>, verify: string -> Option<Principal>): (r: Gate<Principal>)
    ensures (ExtractToken(header).None? || ExtractToken(header) == Some("")) ==> r == Stop(NoToken)
    ensures Truthy(ExtractToken(header)) && verify(ExtractToken(header).value).None? ==> r == Stop(TokenFailed)
    ensures r.Pass? <==> Truthy(ExtractToken(header)) && verify(ExtractToken(header).value).Some?
    ensures r.Pass? ==> r.value == verify(ExtractToken(header).value).value
  {
    var token := ExtractToken(header);
    if !Truthy(token) then Stop(NoToken)
    else
      match verify(token.value)
      case None => Stop(TokenFailed)
      case Some(p) => Pass(p)
  }

  /** A header without the `Bearer ` prefix never reaches verification. */
  lemma NoBearerNoVerify(header: string, verify: string -> Option<Principal>)
    requires !StartsWith(header, BearerPrefix)
    ensures Protect(Some(header), verify) == Stop(NoToken)
  {
  }

  const RoleForbidden := Reply(403, Message("Forbidden: You do not have permission"))

  /** `authorize(...roles)`: continue iff a user is attached and its role is listed. */
  function Authorize(roles: seq<string>, user: Option<Principal>): (r: Gate<Principal>)
    ensures r.Pass? <==> user.Some? && user.value.role in roles
    ensures r.Pass? ==> r.value == user.value
    ensures r.Stop? ==> r.response == RoleForbidden
  {
    if user.None? || user.value.role !in roles then Stop(RoleForbidden) else Pass(user.value)
  }

  /** `protect` then `authorize`, as the admin endpoints chain them. */
  function ProtectAndAuthorize(header: Option<string>, verify: string -> Option<Principal>, roles: seq<string>): (r: Gate<Principal>)
    ensures r.Pass? <==> Protect(header, verify).Pass? && Protect(header, verify).value.role in roles
    ensures Protect(header, verify).Stop? ==> r == Protect(header, verify)
    ensures Protect(header, verify).Pass? && r.Stop? ==> r.response == RoleForbidden
  {
    match Protect(header, verify)
    case Stop(resp) => Stop(resp)
    case Pass(p) => Authorize(roles, Some(p))
  }
}

=== FILE: common.dfy ===
/** Small shared vocabulary: optional values, results, and the handful of
    string operations the server relies on (ASCII lower-casing, prefix and
    suffix tests). */
module Common {

  datatype Option<+T> = None | Some(value: T)

  datatype Result<+T, +E> = Ok(value: T) | Err(error: E)

  /** JavaScript truthiness of an optional string: `undefined` and `""` are falsy. */
  predicate Truthy(o: Option<string>) {
    o.Some? && o.value != ""
  }

  /** `String.prototype.toLowerCase` restricted to ASCII letters. */
  function LowerChar(c: char): (r: char)
    ensures 'A' <= c <= 'Z' ==> 'a' <= r <= 'z' && r as int == c as int + 32
    ensures !('A' <= c <= 'Z') ==> r == c
  {
    if 'A' <= c <= 'Z' then (c as int + 32) as char else c
  }

  function Lower(s: string): (r: string)
    ensures |r| == |s|
    ensures forall i :: 0 <= i < |s| ==> r[i] == LowerChar(s[i])
    ensures forall i :: 0 <= i < |r| ==> !('A' <= r[i] <= 'Z')
  {
    if s == [] then [] else [LowerChar(s[0])] + Lower(s[1..])
  }

  predicate StartsWith(s: string, prefix: string) {
    |prefix| <= |s| && s[..|prefix|] == prefix
  }

  predicate EndsWith(s: string, suffix: string) {
    |suffix| <= |s| && s[|s| - |suffix|..] == suffix
  }
}

=== FILE: crud.dfy ===
/** The route factory (`createCrudRouter`): the five handlers a model
    definition yields, each a transition over the store. Every handler runs
    the role check first; the writers validate next; update and delete fetch
    the row (404) and apply the ownership check (403) before mutating. */
module CrudRouter {
  import opened Common
  import opened Definitions
  import opened Validation
  import opened Policy
  import opened Storage

  /** The table the router reads and writes: `tableName` when set, else the
      lower-cased model name. */
  function CrudTableName(m: ModelDefinition): (r: string)
    ensures Truthy(m.tableName) ==> r == m.tableName.value
    ensures !Truthy(m.tableName) ==> r == Lower(m.name)
  {
    if Truthy(m.tableName) then m.tableName.value else Lower(m.name)
  }

  datatype Outcome = Outcome(response: Response, db: Db)

  const ItemNotFound := Reply(404, Message("Item not found"))
  const NotOwner := Reply(403, Message("Forbidden: You do not own this item"))

  predicate Status(r: Response, code: int) {
    r.Reply? && r.status == code
  }

  /** The payload with the owner column stamped with the principal's id. */
  function Stamp(m: ModelDefinition, p: Principal, body: Payload): (data: Payload)
    ensures OwnerColumn(m).Some? ==> OwnerColumn(m).value in data && data[OwnerColumn(m).value] == IdValue(p.id)
    ensures forall k :: k in body && (OwnerColumn(m).None? || k != OwnerColumn(m).value) ==> k in data && data[k] == body[k]
    ensures forall k :: k in data ==> k in body || OwnerColumn(m) == Some(k)
  {
    if OwnerColumn(m).Some? then body[OwnerColumn(m).value := IdValue(p.id)] else body
  }

  /** POST `/`: role check, validation, owner stamping, insert. */
  function CreateItem(m: ModelDefinition, db: Db, user: Option<Principal>, body: Payload, co: Coercion): (o: Outcome)
    requires DbInv(db)
    ensures DbInv(o.db)
    ensures CheckRbac(m, user, Create).Stop? ==> o == Outcome(CheckRbac(m, user, Create).response, db)
    ensures CheckRbac(m, user, Create).Pass? && Validate(m, body, co).Some? ==>
              o == Outcome(Reply(400, Message(Validate(m, body, co).value)), db)
    ensures CheckRbac(m, user, Create).Pass? && Validate(m, body, co).None? && CrudTableName(m) !in db.tables ==>
              o == Outcome(Reply(500, Message("Error creating item")), db)
    ensures Status(o.response, 201) <==>
              CheckRbac(m, user, Create).Pass? && Validate(m, body, co).None? && CrudTableName(m) in db.tables
    ensures !Status(o.response, 201) ==> o.db == db
    ensures Status(o.response, 201) ==> o.response.body.Item?
    ensures Status(o.response, 201) && o.response.body.Item? ==>
              var t := CrudTableName(m);
              var id := o.response.body.id;
              var row := o.response.body.row;
              id !in db.tables[t].rows &&
              o.db.tables.Keys == db.tables.Keys &&
              (forall n :: n in db.tables && n != t ==> o.db.tables[n] == db.tables[n]) &&
              o.db.tables[t].rows == db.tables[t].rows[id := row] &&
              (forall k :: k in body && (OwnerColumn(m).None? || k != OwnerColumn(m).value) ==> k in row && row[k] == body[k]) &&
              (OwnerColumn(m).Some? ==> OwnerColumn(m).value in row && row[OwnerColumn(m).value] == IdValue(user.value.id))
  {
    match CheckRbac(m, user, Create)
    case Stop(resp) => Outcome(resp, db)
    case Pass(p) =>
      match Validate(m, body, co)
      case Some(msg) => Outcome(Reply(400, Message(msg)), db)
      case None =>
        var data := Stamp(m, p, body);
        var t := CrudTableName(m);
        if t !in db.tables then Outcome(Reply(500, Message("Error creating item")), db)
        else
          var (table', id) := Insert(db.tables[t], data);
          Outcome(Reply(201, Item(id, data)), Put(db, t, table'))
  }

  /** GET `/`: every row, unfiltered by ownership. The handler has no
      try/catch, so on a missing table its promise rejects uncaught. */
  function ListItems(m: ModelDefinition, db: Db, user: Option<Principal>): (o: Outcome)
    ensures o.db == db
    ensures CheckRbac(m, user, Read).Stop? ==> o.response == CheckRbac(m, user, Read).response
    ensures CheckRbac(m, user, Read).Pass? && CrudTableName(m) !in db.tables ==> o.response == Unhandled
    ensures Status(o.response, 200) <==> CheckRbac(m, user, Read).Pass? && CrudTableName(m) in db.tables
    ensures Status(o.response, 200) ==> o.response.body == Items(db.tables[CrudTableName(m)].rows)
  {
    match CheckRbac(m, user, Read)
    case Stop(resp) => Outcome(resp, db)
    case Pass(_) =>
      var t := CrudTableName(m);
      if t !in db.tables then Outcome(Unhandled, db)
      else Outcome(Reply(200, Items(db.tables[t].rows)), db)
  }

  /** GET `/:id`. */
  function GetItem(m: ModelDefinition, db: Db, user: Option<Principal>, id: int): (o: Outcome)
    ensures o.db == db
    ensures CheckRbac(m, user, Read).Stop? ==> o.response == CheckRbac(m, user, Read).response
    ensures CheckRbac(m, user, Read).Pass? && CrudTableName(m) !in db.tables ==> o.response == Unhandled
    ensures CheckRbac(m, user, Read).Pass? && CrudTableName(m) in db.tables && id !in db.tables[CrudTableName(m)].rows ==>
              o.response == ItemNotFound
    ensures Status(o.response, 200) <==>
              CheckRbac(m, user, Read).Pass? && CrudTableName(m) in db.tables && id in db.tables[CrudTableName(m)].rows
    ensures Status(o.response, 200) ==> o.response.body == Item(id, db.tables[CrudTableName(m)].rows[id])
  {
    match CheckRbac(m, user, Read)
    case Stop(resp) => Outcome(resp, db)
    case Pass(_) =>
      var t := CrudTableName(m);
      if t !in db.tables then Outcome(Unhandled, db)
      else if id !in db.tables[t].rows then Outcome(ItemNotFound, db)
      else Outcome(Reply(200, Item(id, db.tables[t].rows[id])), db)
  }

  /** PUT `/:id`: role check, validation of the whole body, fetch (404),
      ownership (403), then the update. Knex refuses an update with an empty
      body, which the handler's catch turns into a 500. */
  function UpdateItem(m: ModelDefinition, db: Db, user: Option<Principal>, id: int, body: Payload, co: Coercion): (o: Outcome)
    requires DbInv(db)
    ensures DbInv(o.db)
    ensures !Status(o.response, 200) ==> o.db == db
    ensures CheckRbac(m, user, Update).Stop? ==> o.response == CheckRbac(m, user, Update).response
    ensures CheckRbac(m, user, Update).Pass? && Validate(m, body, co).Some? ==>
              o.response == Reply(400, Message(Validate(m, body, co).value))
    ensures CheckRbac(m, user, Update).Pass? && Validate(m, body, co).None? && CrudTableName(m) !in db.tables ==>
              o.response == Reply(500, Message("Error updating item"))
    ensures (CheckRbac(m, user, Update).Pass? && Validate(m, body, co).None? && CrudTableName(m) in db.tables &&
             id !in db.tables[CrudTableName(m)].rows) ==> o.response == ItemNotFound
    ensures CheckRbac(m, user, Update).Pass? && Validate(m, body, co).None? && CrudTableName(m) in db.tables &&
            id in db.tables[CrudTableName(m)].rows && OwnershipDenies(m, user.value, db.tables[CrudTableName(m)].rows[id]) ==>
              o.response == NotOwner
    ensures CheckRbac(m, user, Update).Pass? && Validate(m, body, co).None? && CrudTableName(m) in db.tables &&
            id in db.tables[CrudTableName(m)].rows && !OwnershipDenies(m, user.value, db.tables[CrudTableName(m)].rows[id]) &&
            body == map[] ==>
              o.response == Reply(500, Message("Error updating item"))
    ensures Status(o.response, 200) <==>
              CheckRbac(m, user, Update).Pass? && Validate(m, body, co).None? && CrudTableName(m) in db.tables &&
              id in db.tables[CrudTableName(m)].rows && !OwnershipDenies(m, user.value, db.tables[CrudTableName(m)].rows[id]) &&
              body != map[]
    ensures Status(o.response, 200) ==>
              var t := CrudTableName(m);
              o.db.tables.Keys == db.tables.Keys &&
              (forall n :: n in db.tables && n != t ==> o.db.tables[n] == db.tables[n]) &&
              o.db.tables[t].rows.Keys == db.tables[t].rows.Keys &&
              (forall k :: k in db.tables[t].rows && k != id ==> o.db.tables[t].rows[k] == db.tables[t].rows[k]) &&
              o.db.tables[t].rows[id] == db.tables[t].rows[id] + body &&
              o.response.body == Item(id, o.db.tables[t].rows[id])
  {
    match CheckRbac(m, user, Update)
    case Stop(resp) => Outcome(resp, db)
    case Pass(p) =>
      match Validate(m, body, co)
      case Some(msg) => Outcome(Reply(400, Message(msg)), db)
      case None =>
        var t := CrudTableName(m);
        if t !in db.tables then Outcome(Reply(500, Message("Error updating item")), db)
        else if id !in db.tables[t].rows then Outcome(ItemNotFound, db)
        else if OwnershipDenies(m, p, db.tables[t].rows[id]) then Outcome(NotOwner, db)
        else if body == map[] then Outcome(Reply(500, Message("Error updating item")), db)
        else
          var table' := UpdateRow(db.tables[t], id, body);
          Outcome(Reply(200, Item(id, table'.rows[id])), Put(db, t, table'))
  }

  /** DELETE `/:id`: role check, fetch (404), ownership (403), delete (204). */
  function DeleteItem(m: ModelDefinition, db: Db, user: Option<Principal>, id: int): (o: Outcome)
    requires DbInv(db)
    ensures DbInv(o.db)
    ensures !Status(o.response, 204) ==> o.db == db
    ensures CheckRbac(m, user, Delete).Stop? ==> o.response == CheckRbac(m, user, Delete).response
    ensures CheckRbac(m, user, Delete).Pass? && CrudTableName(m) !in db.tables ==>
              o.response == Reply(500, Message("Error deleting item"))
    ensures (CheckRbac(m, user, Delete).Pass? && CrudTableName(m) in db.tables &&
             id !in db.tables[CrudTableName(m)].rows) ==> o.response == ItemNotFound
    ensures CheckRbac(m, user, Delete).Pass? && CrudTableName(m) in db.tables &&
            id in db.tables[CrudTableName(m)].rows && OwnershipDenies(m, user.value, db.tables[CrudTableName(m)].rows[id]) ==>
              o.response == NotOwner
    ensures Status(o.response, 204) <==>
              CheckRbac(m, user, Delete).Pass? && CrudTableName(m) in db.tables &&
              id in db.tables[CrudTableName(m)].rows && !OwnershipDenies(m, user.value, db.tables[CrudTableName(m)].rows[id])
    ensures Status(o.response, 204) ==>
              var t := CrudTableName(m);
              o.response.body == NoBody &&
              o.db.tables.Keys == db.tables.Keys &&
              (forall n :: n in db.tables && n != t ==> o.db.tables[n] == db.tables[n]) &&
              o.db.tables[t].rows.Keys == db.tables[t].rows.Keys - {id} &&
              (forall k :: k in o.db.tables[t].rows ==> o.db.tables[t].rows[k] == db.tables[t].rows[k])
  {
    match CheckRbac(m, user, Delete)
    case Stop(resp) => Outcome(resp, db)
    case Pass(p) =>
      var t := CrudTableName(m);
      if t !in db.tables then Outcome(Reply(500, Message("Error deleting item")), db)
      else if id !in db.tables[t].rows then Outcome(ItemNotFound, db)
      else if OwnershipDenies(m, p, db.tables[t].rows[id]) then Outcome(NotOwner, db)
      else Outcome(Reply(204, NoBody), Put(db, t, DeleteRow(db.tables[t], id)))
  }

  /** Update validates before it looks the row up: an invalid body is a 400
      even when no row has that id. */
  lemma UpdateValidatesBeforeLookup(m: ModelDefinition, db: Db, p: Principal, id: int, body: Payload, co: Coercion)
    requires DbInv(db)
    requires CheckRbac(m, Some(p), Update).Pass? && Validate(m, body, co).Some?
    requires CrudTableName(m) in db.tables && id !in db.tables[CrudTableName(m)].rows
    ensures UpdateItem(m, db, Some(p), id, body, co).response.status == 400
  {
  }

  /** A non-Admin principal on an owned model can change or remove only the
      rows it owns; Admin can change any row. */
  lemma MutationRequiresOwnership(m: ModelDefinition, db: Db, p: Principal, id: int, body: Payload, co: Coercion)
    requires DbInv(db)
    ensures Status(UpdateItem(m, db, Some(p), id, body, co).response, 200) && Truthy(m.ownerField) && p.role != AdminRole ==>
              var row := db.tables[CrudTableName(m)].rows[id];
              m.ownerField.value in row && row[m.ownerField.value] == IdValue(p.id)
    ensures Status(DeleteItem(m, db, Some(p), id).response, 204) && Truthy(m.ownerField) && p.role != AdminRole ==>
              var row := db.tables[CrudTableName(m)].rows[id];
              m.ownerField.value in row && row[m.ownerField.value] == IdValue(p.id)
    ensures (p.role == AdminRole && CheckRbac(m, Some(p), Delete).Pass? && CrudTableName(m) in db.tables &&
             id in db.tables[CrudTableName(m)].rows) ==> Status(DeleteItem(m, db, Some(p), id).response, 204)
  {
    if Status(UpdateItem(m, db, Some(p), id, body, co).response, 200) {
      OwnershipCases(m, p, db.tables[CrudTableName(m)].rows[id]);
    }
    if Status(DeleteItem(m, db, Some(p), id).response, 204) {
      OwnershipCases(m, p, db.tables[CrudTableName(m)].rows[id]);
    }
    if p.role == AdminRole && CrudTableName(m) in db.tables && id in db.tables[CrudTableName(m)].rows {
      OwnershipCases(m, p, db.tables[CrudTableName(m)].rows[id]);
    }
  }

  /** A created row can be read back by id, unchanged. */
  lemma CreateThenGet(m: ModelDefinition, db: Db, p: Principal, body: Payload, co: Coercion)
    requires DbInv(db)
    requires Status(CreateItem(m, db, Some(p), body, co).response, 201)
    requires CheckRbac(m, Some(p), Read).Pass?
    ensures var o := CreateItem(m, db, Some(p), body, co);
            GetItem(m, o.db, Some(p), o.response.body.id).response == Reply(200, o.response.body)
  {
  }

  /** A created row shows up in the next full listing under its new id. */
  lemma CreateThenList(m: ModelDefinition, db: Db, p: Principal, body: Payload, co: Coercion)
    requires DbInv(db)
    requires Status(CreateItem(m, db, Some(p), body, co).response, 201)
    requires CheckRbac(m, Some(p), Read).Pass?
    ensures var o := CreateItem(m, db, Some(p), body, co);
            var l := ListItems(m, o.db, Some(p)).response;
            Status(l, 200) && o.response.body.id in l.body.rows && l.body.rows[o.response.body.id] == o.response.body.row
  {
  }

  /** A deleted row is gone: reading it again is a 404. */
  lemma DeleteThenGet(m: ModelDefinition, db: Db, p: Principal, id: int)
    requires DbInv(db)
    requires Status(DeleteItem(m, db, Some(p), id).response, 204)
    requires CheckRbac(m, Some(p), Read).Pass?
    ensures GetItem(m, DeleteItem(m, db, Some(p), id).db, Some(p), id).response == ItemNotFound
  {
  }
}

=== FILE: ddl.dfy ===
/** Table synthesis (`createTableFromDefinition`): the column list a model
    definition produces. The list is a pure function of the definition; the
    storage layer decides whether the table can be created. */
module Ddl {
  import opened Common
  import opened Definitions
  import opened Storage

  /** The table the schema service creates and reconciles: always the
      lower-cased model name, whatever `tableName` says. */
  function DdlTableName(m: ModelDefinition): string {
    Lower(m.name)
  }

  const IdColumn := Column("id", Increments, false, true, true, NoDefault, None)
  const CreatedAt := Column("created_at", Timestamp, false, false, true, DefaultNow, None)
  const UpdatedAt := Column("updated_at", Timestamp, false, false, true, DefaultNow, None)

  /** The four field types that have a column builder case. */
  predicate Mapped(t: FieldType) {
    t.StringType? || t.NumberType? || t.BooleanType? || t.RelationType?
  }

  /** The column a field's type case builds, before `required` is applied. */
  function TypeColumn(f: Field): Option<Column> {
    match f.ftype
    case StringType => Some(Column(f.name, VarChar, false, false, false, NoDefault, None))
    case NumberType => Some(Column(f.name, Integer, false, false, false, NoDefault, None))
    case BooleanType => Some(Column(f.name, Boolean, false, false, false, DefaultFalse, None))
    case RelationType =>
      var fk := if Truthy(f.relation) then Some(ForeignKey(Lower(f.relation.value), "id", "SET NULL")) else None;
      Some(Column(f.name, Integer, true, false, false, NoDefault, fk))
    case _ => None
  }

  /** The field's column with `required` turned into a not-null constraint. */
  function FieldColumn(f: Field): Option<Column> {
    match TypeColumn(f)
    case None => None
    case Some(c) => Some(if f.required then c.(notNull := true) else c)
  }

  /** A field's column carries the field's name. */
  lemma FieldColumnName(f: Field)
    requires Mapped(f.ftype)
    ensures FieldColumn(f).Some? && FieldColumn(f).value.name == f.name
  {
  }

  /** `column.notNullable()` on an undefined column throws. */
  const RequiredUnmappedError := "Cannot read properties of undefined (reading 'notNullable')"

  /** The loop over `model.fields`: one column per field with a type case, in
      field order, and a failure at the first required field without one. */
  function FieldColumns(fields: seq<Field>): (r: Result<seq<Column>, string>)
    ensures r.Ok? <==> forall i :: 0 <= i < |fields| ==> Mapped(fields[i].ftype) || !fields[i].required
    ensures r.Ok? ==> forall c :: c in r.value ==>
              exists i :: 0 <= i < |fields| && Mapped(fields[i].ftype) && FieldColumn(fields[i]) == Some(c)
    ensures r.Ok? ==> forall i :: 0 <= i < |fields| && Mapped(fields[i].ftype) ==> FieldColumn(fields[i]).value in r.value
    ensures r.Ok? ==> |r.value| <= |fields|
  {
    if fields == [] then Ok([])
    else
      var f := fields[0];
      assert forall i :: 1 <= i < |fields| ==> fields[i] == fields[1..][i - 1];
      match FieldColumns(fields[1..])
      case Err(e) => if f.required && !Mapped(f.ftype) then Err(RequiredUnmappedError) else Err(e)
      case Ok(rest) =>
        if !Mapped(f.ftype) then
          if f.required then Err(RequiredUnmappedError) else Ok(rest)
        else Ok([FieldColumn(f).value] + rest)
  }

  /** `idx` lists, in strictly increasing order, exactly the indices of the
      fields with a type case, and `cols` holds their columns position by
      position. */
  predicate ListsMappedInOrder(fields: seq<Field>, cols: seq<Column>, idx: seq<int>) {
    |idx| == |cols| && PointsAtColumns(fields, cols, idx) && Increasing(idx) && CoversMapped(fields, idx)
  }

  predicate PointsAtColumns(fields: seq<Field>, cols: seq<Column>, idx: seq<int>)
    requires |idx| == |cols|
  {
    forall k :: 0 <= k < |idx| ==>
      0 <= idx[k] < |fields| && Mapped(fields[idx[k]].ftype) && FieldColumn(fields[idx[k]]) == Some(cols[k])
  }

  predicate Increasing(idx: seq<int>) {
    forall k, l :: 0 <= k < l < |idx| ==> idx[k] < idx[l]
  }

  predicate CoversMapped(fields: seq<Field>, idx: seq<int>) {
    forall i :: 0 <= i < |fields| && Mapped(fields[i].ftype) ==> i in idx
  }

  /** Every index one position up. */
  function Shift(idx: seq<int>): (r: seq<int>)
    ensures |r| == |idx| && forall k :: 0 <= k < |idx| ==> r[k] == idx[k] + 1
  {
    seq(|idx|, k requires 0 <= k < |idx| => idx[k] + 1)
  }

  /** A witness for the tail of the fields, moved one position up, points at
      the same columns in the whole list, still in increasing order. */
  lemma {:induction false} ShiftKeepsColumns(fields: seq<Field>, cols: seq<Column>, rest: seq<int>)
    requires fields != [] && ListsMappedInOrder(fields[1..], cols, rest)
    ensures forall k :: 0 <= k < |rest| ==>
              1 <= Shift(rest)[k] < |fields| && Mapped(fields[Shift(rest)[k]].ftype) && FieldColumn(fields[Shift(rest)[k]]) == Some(cols[k])
    ensures forall k, l :: 0 <= k < l < |rest| ==> Shift(rest)[k] < Shift(rest)[l]
  {
    forall k | 0 <= k < |rest|
      ensures 1 <= Shift(rest)[k] < |fields| && Mapped(fields[Shift(rest)[k]].ftype) && FieldColumn(fields[Shift(rest)[k]]) == Some(cols[k])
    {
      assert fields[Shift(rest)[k]] == fields[1..][rest[k]];
    }
  }

  /** ... and it covers every mapped field after the first. */
  lemma {:induction false} ShiftCovers(fields: seq<Field>, cols: seq<Column>, rest: seq<int>)
    requires fields != [] && ListsMappedInOrder(fields[1..], cols, rest)
    ensures forall i :: 1 <= i < |fields| && Mapped(fields[i].ftype) ==> i in Shift(rest)
  {
    forall i | 1 <= i < |fields| && Mapped(fields[i].ftype) ensures i in Shift(rest) {
      assert fields[1..][i - 1] == fields[i];
      var k :| 0 <= k < |rest| && rest[k] == i - 1;
      assert Shift(rest)[k] == i;
    }
  }

  /** A mapped first field goes in front of the moved-up tail witness. */
  lemma {:induction false} ConsWitness(fields: seq<Field>, cols: seq<Column>, rest: seq<int>)
    requires fields != [] && Mapped(fields[0].ftype) && ListsMappedInOrder(fields[1..], cols, rest)
    ensures ListsMappedInOrder(fields, [FieldColumn(fields[0]).value] + cols, [0] + Shift(rest))
  {
    ShiftKeepsColumns(fields, cols, rest);
    ShiftCovers(fields, cols, rest);
    ConsPoints(fields, cols, rest);
    ConsIncreasing(rest);
    ConsCovers(fields, rest);
  }

  lemma {:induction false} ConsPoints(fields: seq<Field>, cols: seq<Column>, rest: seq<int>)
    requires fields != [] && Mapped(fields[0].ftype) && |rest| == |cols|
    requires forall k :: 0 <= k < |rest| ==>
               1 <= Shift(rest)[k] < |fields| && Mapped(fields[Shift(rest)[k]].ftype) && FieldColumn(fields[Shift(rest)[k]]) == Some(cols[k])
    ensures PointsAtColumns(fields, [FieldColumn(fields[0]).value] + cols, [0] + Shift(rest))
  {
    var idx := [0] + Shift(rest);
    var all := [FieldColumn(fields[0]).value] + cols;
    forall k | 0 <= k < |idx|
      ensures 0 <= idx[k] < |fields| && Mapped(fields[idx[k]].ftype) && FieldColumn(fields[idx[k]]) == Some(all[k])
    {
      if k > 0 { assert idx[k] == Shift(rest)[k - 1] && all[k] == cols[k - 1]; }
    }
  }

  lemma {:induction false} ConsIncreasing(rest: seq<int>)
    requires forall k :: 0 <= k < |rest| ==> 1 <= Shift(rest)[k]
    requires forall k, l :: 0 <= k < l < |rest| ==> Shift(rest)[k] < Shift(rest)[l]
    ensures Increasing([0] + Shift(rest))
  {
    var idx := [0] + Shift(rest);
    forall k, l | 0 <= k < l < |idx| ensures idx[k] < idx[l] {
      assert idx[l] == Shift(rest)[l - 1];
      if k > 0 { assert idx[k] == Shift(rest)[k - 1]; }
    }
  }

  lemma {:induction false} ConsCovers(fields: seq<Field>, rest: seq<int>)
    requires forall i :: 1 <= i < |fields| && Mapped(fields[i].ftype) ==> i in Shift(rest)
    ensures CoversMapped(fields, [0] + Shift(rest))
  {
    var idx := [0] + Shift(rest);
    forall i | 0 <= i < |fields| && Mapped(fields[i].ftype) ensures i in idx {
      if i > 0 {
        var k :| 0 <= k < |Shift(rest)| && Shift(rest)[k] == i;
        assert idx[k + 1] == i;
      }
    }
  }

  /** An unmapped first field is skipped: the moved-up tail witness serves. */
  lemma {:induction false} SkipWitness(fields: seq<Field>, cols: seq<Column>, rest: seq<int>)
    requires fields != [] && !Mapped(fields[0].ftype) && ListsMappedInOrder(fields[1..], cols, rest)
    ensures ListsMappedInOrder(fields, cols, Shift(rest))
  {
    ShiftKeepsColumns(fields, cols, rest);
    ShiftCovers(fields, cols, rest);
  }

  /** The index witness for `FieldColumnsInFieldOrder`, built field by field. */
  lemma {:induction false} MappedIndexWitness(fields: seq<Field>) returns (idx: seq<int>)
    requires FieldColumns(fields).Ok?
    ensures ListsMappedInOrder(fields, FieldColumns(fields).value, idx)
    decreases |fields|
  {
    if fields == [] {
      idx := [];
    } else {
      assert FieldColumns(fields[1..]).Ok?;
      var cols := FieldColumns(fields[1..]).value;
      var rest := MappedIndexWitness(fields[1..]);
      if Mapped(fields[0].ftype) {
        ConsWitness(fields, cols, rest);
        idx := [0] + Shift(rest);
      } else {
        SkipWitness(fields, cols, rest);
        idx := Shift(rest);
      }
    }
  }

  /** One column per field with a type case, in field order: no field is
      merged with another, dropped or reordered. */
  lemma FieldColumnsInFieldOrder(fields: seq<Field>)
    requires FieldColumns(fields).Ok?
    ensures exists idx :: ListsMappedInOrder(fields, FieldColumns(fields).value, idx)
  {
    var idx := MappedIndexWitness(fields);
  }

  /** The owner column: an unsigned integer referencing `users.id`. */
  function OwnerColumnFor(m: ModelDefinition): seq<Column> {
    if Truthy(m.ownerField) then
      [Column(m.ownerField.value, Integer, true, false, false, NoDefault, Some(ForeignKey("users", "id", "SET NULL")))]
    else []
  }

  /** `createTableFromDefinition`'s column list: `id`, the field columns, the
      owner column, the two timestamps. */
  function Columns(m: ModelDefinition): (r: Result<seq<Column>, string>)
    ensures r.Ok? <==> forall i :: 0 <= i < |m.fields| ==> Mapped(m.fields[i].ftype) || !m.fields[i].required
    ensures r.Ok? ==> |r.value| == |FieldColumns(m.fields).value| + |OwnerColumnFor(m)| + 3
    ensures r.Ok? ==> r.value[0] == IdColumn && r.value[|r.value| - 2] == CreatedAt && r.value[|r.value| - 1] == UpdatedAt
    ensures r.Ok? ==> forall i :: 0 <= i < |m.fields| && Mapped(m.fields[i].ftype) ==> FieldColumn(m.fields[i]).value in r.value
  {
    match FieldColumns(m.fields)
    case Err(e) => Err(e)
    case Ok(cols) => Ok([IdColumn] + cols + OwnerColumnFor(m) + [CreatedAt, UpdatedAt])
  }

  /** The field columns follow `id` directly, in their own order. */
  lemma ColumnAfterId(m: ModelDefinition, a: int)
    requires Columns(m).Ok? && 0 <= a < |FieldColumns(m.fields).value|
    ensures Columns(m).value[a + 1] == FieldColumns(m.fields).value[a]
  {
    var fcols := FieldColumns(m.fields).value;
    assert Columns(m).value == [IdColumn] + fcols + OwnerColumnFor(m) + [CreatedAt, UpdatedAt];
  }

  /** Every column is `id`, a timestamp, the owner column or a field's. */
  lemma ColumnOrigin(m: ModelDefinition, c: Column)
    requires Columns(m).Ok? && c in Columns(m).value
    ensures c == IdColumn || c == CreatedAt || c == UpdatedAt || c in OwnerColumnFor(m) || c in FieldColumns(m.fields).value
  {
    assert Columns(m).value == [IdColumn] + FieldColumns(m.fields).value + OwnerColumnFor(m) + [CreatedAt, UpdatedAt];
  }

  /** The implicit columns: `id` first, an auto-increment primary key; the two
      timestamps last, not null and defaulting to the current time. */
  lemma ImplicitColumns(m: ModelDefinition)
    requires Columns(m).Ok?
    ensures var cols := Columns(m).value;
            |cols| >= 3 && cols[0] == IdColumn && cols[0].ctype == Increments && cols[0].primary &&
            cols[|cols| - 2].name == "created_at" && cols[|cols| - 1].name == "updated_at" &&
            cols[|cols| - 2].notNull && cols[|cols| - 1].notNull &&
            cols[|cols| - 2].default == DefaultNow && cols[|cols| - 1].default == DefaultNow
  {
  }

  /** The column synthesis fails exactly when a required field has a type
      without a column case (`float` among them). */
  lemma ColumnsFailIffRequiredUnmapped(m: ModelDefinition)
    ensures Columns(m).Err? <==> exists i :: 0 <= i < |m.fields| && m.fields[i].required && !Mapped(m.fields[i].ftype)
  {
  }

  /** The per-type mapping, as it shows in the generated table. */
  lemma TypeMapping(m: ModelDefinition, i: int)
    requires Columns(m).Ok? && 0 <= i < |m.fields|
    ensures var f := m.fields[i];
            var cols := Columns(m).value;
            (f.ftype == StringType ==> Column(f.name, VarChar, false, false, f.required, NoDefault, None) in cols) &&
            (f.ftype == NumberType ==> Column(f.name, Integer, false, false, f.required, NoDefault, None) in cols) &&
            (f.ftype == BooleanType ==> Column(f.name, Boolean, false, false, f.required, DefaultFalse, None) in cols) &&
            (f.ftype == RelationType && Truthy(f.relation) ==>
               Column(f.name, Integer, true, false, f.required, NoDefault,
                      Some(ForeignKey(Lower(f.relation.value), "id", "SET NULL"))) in cols) &&
            (f.ftype == RelationType && !Truthy(f.relation) ==>
               Column(f.name, Integer, true, false, f.required, NoDefault, None) in cols)
  {
    var f := m.fields[i];
    var fc := FieldColumns(m.fields).value;
    if Mapped(f.ftype) {
      assert FieldColumn(f).value in fc;
    }
  }

  /** With `ownerField` set, the owner column is present and references
      `users.id` with `ON DELETE SET NULL`; without it, the only columns
      referencing `users` are those of relation fields naming that model. */
  lemma OwnerColumnPresent(m: ModelDefinition)
    requires Columns(m).Ok?
    ensures var cols := Columns(m).value;
            Truthy(m.ownerField) ==>
              Column(m.ownerField.value, Integer, true, false, false, NoDefault,
                     Some(ForeignKey("users", "id", "SET NULL"))) in cols
    ensures var cols := Columns(m).value;
            !Truthy(m.ownerField) ==>
              forall c :: c in cols && c.references.Some? && c.references.value.table == "users" ==>
                exists i :: 0 <= i < |m.fields| && m.fields[i].ftype == RelationType && m.fields[i].name == c.name &&
                            Truthy(m.fields[i].relation) && Lower(m.fields[i].relation.value) == "users"
  {
    var cols := Columns(m).value;
    var fc := FieldColumns(m.fields).value;
    if Truthy(m.ownerField) {
      assert cols == [IdColumn] + fc + OwnerColumnFor(m) + [CreatedAt, UpdatedAt];
      assert OwnerColumnFor(m)[0] in cols;
    } else {
      forall c | c in cols && c.references.Some? && c.references.value.table == "users"
        ensures exists i :: 0 <= i < |m.fields| && m.fields[i].ftype == RelationType && m.fields[i].name == c.name &&
                            Truthy(m.fields[i].relation) && Lower(m.fields[i].relation.value) == "users"
      {
        var i := UsersKeyFromRelation(m, c);
      }
    }
  }

  /** Without an owner field, a key into `users` comes from a relation field. */
  lemma UsersKeyFromRelation(m: ModelDefinition, c: Column) returns (i: int)
    requires Columns(m).Ok? && !Truthy(m.ownerField) && c in Columns(m).value
    requires c.references.Some? && c.references.value.table == "users"
    ensures 0 <= i < |m.fields| && m.fields[i].ftype == RelationType && m.fields[i].name == c.name &&
            Truthy(m.fields[i].relation) && Lower(m.fields[i].relation.value) == "users"
  {
    ColumnOrigin(m, c);
    assert c in FieldColumns(m.fields).value;
    i := FieldColumnFromField(m.fields, c);
    KeyedColumnIsRelation(m.fields[i]);
  }

  /** Only a relation field's column carries a foreign key, to the lower-cased
      target. */
  lemma KeyedColumnIsRelation(f: Field)
    requires FieldColumn(f).Some? && FieldColumn(f).value.references.Some?
    ensures f.ftype == RelationType && Truthy(f.relation)
    ensures FieldColumn(f).value.references.value.table == Lower(f.relation.value)
  {
  }

  /** A non-required field whose type has no column case contributes no
      column: unless some other column happens to share its name, the table
      has no column for it. */
  lemma UnmappedFieldHasNoColumn(m: ModelDefinition, i: int)
    requires 0 <= i < |m.fields| && !Mapped(m.fields[i].ftype) && !m.fields[i].required
    requires forall j :: 0 <= j < |m.fields| && j != i ==> m.fields[j].name != m.fields[i].name
    requires m.fields[i].name !in {"id", "created_at", "updated_at"}
    requires !(Truthy(m.ownerField) && m.ownerField.value == m.fields[i].name)
    ensures Columns(m).Ok? ==> forall c :: c in Columns(m).value ==> c.name != m.fields[i].name
  {
    if Columns(m).Ok? {
      forall c | c in Columns(m).value
        ensures c.name != m.fields[i].name
      {
        ColumnOrigin(m, c);
        if c in FieldColumns(m.fields).value {
          var j := FieldColumnFromField(m.fields, c);
        }
      }
    }
  }

  /** A field column carries the name of a mapped field. */
  lemma FieldColumnFromField(fields: seq<Field>, c: Column) returns (j: int)
    requires FieldColumns(fields).Ok? && c in FieldColumns(fields).value
    ensures 0 <= j < |fields| && Mapped(fields[j].ftype) && fields[j].name == c.name
    ensures FieldColumn(fields[j]) == Some(c)
  {
    j :| 0 <= j < |fields| && Mapped(fields[j].ftype) && FieldColumn(fields[j]) == Some(c);
    FieldColumnName(fields[j]);
  }
}

=== FILE: definitions.dfy ===
/** The data the generator is driven by: model definitions, their fields,
    request payload values, the authenticated principal, and the HTTP
    responses the handlers produce. */
module Definitions {
  import opened Common

  /** A JSON value as it arrives in a request body. A key that is absent from
      the payload stands for JavaScript `undefined`. Numbers are kept as
      reals (JSON has no NaN); arrays and objects are not inspected by any
      modelled code, so they collapse into `Compound`. */
  datatype Value = Null | Str(s: string) | Bool(b: bool) | Num(x: real) | Compound

  type Payload = map<string, Value>

  /** A stored row: column name to value, without the `id` key, which is the
      row's key in its table. */
  type Row = map<string, Value>

  /** `data[key]`: `None` is `undefined`. */
  function Lookup(data: map<string, Value>, key: string): (r: Option<Value>)
    ensures r.Some? <==> key in data
    ensures r.Some? ==> r.value == data[key]
  {
    if key in data then Some(data[key]) else None
  }

  /** The declared field types. The validator and the column mapping disagree
      on which of them they know (`float`), and any other string is possible in
      a published definition. */
  datatype FieldType = StringType | NumberType | FloatType | BooleanType | RelationType | OtherType(tag: string)

  /** `relation` is the optional target model name of a relation field. */
  datatype Field = Field(name: string, ftype: FieldType, required: bool, relation: Option<string>)

  /** A model definition as published. `tableName` and `ownerField` are
      optional; the empty string is as falsy as a missing value. `rbac` maps a
      role to the permission names it holds (`create`, `read`, `update`,
      `delete`, `all`, or anything else a publisher wrote). */
  datatype ModelDefinition = ModelDefinition(
    name: string,
    tableName: Option<string>,
    description: Option<string>,
    fields: seq<Field>,
    rbac: map<string, seq<string>>,
    ownerField: Option<string>)

  /** The decoded token payload attached by the authentication middleware. An
      empty role stands for a token without one. */
  datatype Principal = Principal(id: int, role: string)

  datatype Op = Create | Read | Update | Delete

  function OpName(op: Op): string {
    match op
    case Create => "create"
    case Read => "read"
    case Update => "update"
    case Delete => "delete"
  }

  const AdminRole := "Admin"

  /** The value a principal's id takes in a row. */
  function IdValue(id: int): Value {
    Num(id as real)
  }

  /** The list projection returned by `GET /api/models`. */
  datatype ModelSummary = ModelSummary(name: string, description: Option<string>, fields: seq<Field>)

  datatype Body =
    | Message(text: string)
    | Item(id: int, row: Row)
    | Items(rows: map<int, Row>)
    | Summaries(models: seq<ModelSummary>)
    | Account(userId: int, email: string, role: string)
    | Session(token: string, userId: int, email: string, role: string)
    | NoBody

  /** `Reply` is a response a handler sends. `Unhandled` is a handler whose
      promise rejects outside any try/catch: the handler sends nothing, and
      what follows (a framework-generated 500, a hung request, or the process
      ending) depends on the framework and runtime versions. */
  datatype Response = Reply(status: int, body: Body) | Unhandled

  /** The outcome of a middleware: continue with a value, or stop with a response. */
  datatype Gate<+T> = Pass(value: T) | Stop(response: Response)
}

=== FILE: email_pattern.dfy ===
/** The e-mail shape test of registration, `/\S+@\S+\.\S+/.test(email)`:
    unanchored, so it asks whether some stretch of non-whitespace holds a
    character, `@`, at least one character, `.`, and a character. The
    declarative reading is `EmailShape`; `MatchesEmailPattern` decides it in
    one left-to-right pass, the way a regular-expression automaton would. */
module EmailPattern {

  /** The characters JavaScript's `\s` matches. */
  predicate IsWs(c: char) {
    c == ' ' || c == '\t' || c == '\n' || c == '\r' || c == '\U{000B}' || c == '\U{000C}' ||
    c == '\U{00A0}' || c == '\U{1680}' || ('\U{2000}' <= c <= '\U{200A}') ||
    c == '\U{2028}' || c == '\U{2029}' || c == '\U{202F}' || c == '\U{205F}' ||
    c == '\U{3000}' || c == '\U{FEFF}'
  }

  predicate NonWsRange(s: string, lo: int, hi: int)
    requires 0 <= lo <= hi <= |s|
  {
    forall k :: lo <= k < hi ==> !IsWs(s[k])
  }

  /** Some `x@y.z` with single non-whitespace `x`, `z` and a non-empty
      whitespace-free `y`: a shortest match of the pattern. */
  predicate EmailShape(s: string) {
    exists i, j :: 1 <= i && i + 2 <= j && j + 2 <= |s| && s[i] == '@' && s[j] == '.' && NonWsRange(s, i - 1, j + 2)
  }

  // The automaton's states, read as facts about the prefix consumed so far.

  /** An `@` at `i` preceded by a character, with no whitespace from there on. */
  ghost predicate AtRun(p: string, i: int) {
    1 <= i < |p| && p[i] == '@' && NonWsRange(p, i - 1, |p|)
  }

  /** `\S+` ends here. */
  ghost predicate L1(p: string) {
    |p| >= 1 && !IsWs(p[|p| - 1])
  }

  /** `\S+@` ends here, possibly followed by more non-whitespace. */
  ghost predicate L2(p: string) {
    exists i :: AtRun(p, i)
  }

  /** `\S+@\S+` ends here. */
  ghost predicate L3(p: string) {
    exists i :: AtRun(p, i) && i + 2 <= |p|
  }

  /** `\S+@\S+\.` ends here, possibly followed by more non-whitespace. */
  ghost predicate L4(p: string) {
    exists i, j :: AtRun(p, i) && i + 2 <= j < |p| && p[j] == '.'
  }

  /** The highest state the prefix reaches; 5 is a match. */
  ghost function Level(p: string): (l: int)
    ensures 0 <= l <= 5
  {
    if EmailShape(p) then 5
    else if L4(p) then 4
    else if L3(p) then 3
    else if L2(p) then 2
    else if L1(p) then 1
    else 0
  }

  /** The automaton's transition. */
  function Step(level: int, c: char): int {
    if level == 5 then 5
    else if IsWs(c) then 0
    else if level == 0 then 1
    else if level == 1 then (if c == '@' then 2 else 1)
    else if level == 2 then 3
    else if level == 3 then (if c == '.' then 4 else 3)
    else 5
  }

  lemma Hierarchy(p: string)
    ensures L4(p) ==> L3(p)
    ensures L3(p) ==> L2(p)
    ensures L2(p) ==> L1(p)
  {
    if L4(p) {
      var i, j :| AtRun(p, i) && i + 2 <= j < |p| && p[j] == '.';
      assert AtRun(p, i) && i + 2 <= |p|;
    }
    if L2(p) {
      var i :| AtRun(p, i);
      assert !IsWs(p[|p| - 1]);
    }
  }

  lemma MatchKept(p: string, c: char)
    requires EmailShape(p)
    ensures EmailShape(p + [c])
  {
    var q := p + [c];
    var i, j :| 1 <= i && i + 2 <= j && j + 2 <= |p| && p[i] == '@' && p[j] == '.' && NonWsRange(p, i - 1, j + 2);
    assert q[i] == '@' && q[j] == '.';
    assert NonWsRange(q, i - 1, j + 2) by {
      forall k | i - 1 <= k < j + 2 ensures !IsWs(q[k]) { assert q[k] == p[k]; }
    }
  }

  /** A match of the longer prefix that ends before the new character is a
      match of the shorter one. */
  lemma MatchShrinks(p: string, c: char, i: int, j: int)
    requires 1 <= i && i + 2 <= j && j + 2 <= |p|
    requires (p + [c])[i] == '@' && (p + [c])[j] == '.' && NonWsRange(p + [c], i - 1, j + 2)
    ensures EmailShape(p)
  {
    var q := p + [c];
    assert p[i] == q[i] && p[j] == q[j];
    assert NonWsRange(p, i - 1, j + 2) by {
      forall k | i - 1 <= k < j + 2 ensures !IsWs(p[k]) { assert q[k] == p[k]; }
    }
  }

  lemma MatchAfterWs(p: string, c: char)
    requires IsWs(c)
    ensures EmailShape(p + [c]) <==> EmailShape(p)
  {
    var q := p + [c];
    if EmailShape(q) {
      var i, j :| 1 <= i && i + 2 <= j && j + 2 <= |q| && q[i] == '@' && q[j] == '.' && NonWsRange(q, i - 1, j + 2);
      assert !IsWs(q[j + 1]) && q[|p|] == c;
      assert j + 1 != |p|;
      MatchShrinks(p, c, i, j);
    }
    if EmailShape(p) {
      MatchKept(p, c);
    }
  }

  lemma StatesAfterWs(p: string, c: char)
    requires IsWs(c)
    ensures !L1(p + [c]) && !L2(p + [c]) && !L3(p + [c]) && !L4(p + [c])
  {
    var q := p + [c];
    assert q[|q| - 1] == c;
    Hierarchy(q);
  }

  /** Extending a run of non-whitespace keeps every `@` witness alive. */
  lemma AtRunExtends(p: string, c: char, i: int)
    requires !IsWs(c) && AtRun(p, i)
    ensures AtRun(p + [c], i)
  {
    var q := p + [c];
    forall k | i - 1 <= k < |q| ensures !IsWs(q[k]) {
      if k < |p| { assert q[k] == p[k]; }
    }
  }

  /** A witness for the longer prefix that stops short of the new character
      is a witness for the shorter one. */
  lemma AtRunShrinks(p: string, c: char, i: int)
    requires AtRun(p + [c], i) && i < |p|
    ensures AtRun(p, i)
  {
    var q := p + [c];
    forall k | i - 1 <= k < |p| ensures !IsWs(p[k]) {
      assert q[k] == p[k];
    }
  }

  lemma L2Step(p: string, c: char)
    requires !IsWs(c)
    ensures L2(p + [c]) <==> L2(p) || (c == '@' && L1(p))
  {
    var q := p + [c];
    if L2(q) {
      var i :| AtRun(q, i);
      if i < |p| {
        AtRunShrinks(p, c, i);
      } else {
        assert q[i - 1] == p[|p| - 1];
      }
    }
    if L2(p) {
      var i :| AtRun(p, i);
      AtRunExtends(p, c, i);
    }
    if c == '@' && L1(p) {
      assert q[|p| - 1] == p[|p| - 1];
      assert AtRun(q, |p|);
    }
  }

  lemma L3Step(p: string, c: char)
    requires !IsWs(c)
    ensures L3(p + [c]) <==> L2(p)
  {
    var q := p + [c];
    if L3(q) {
      var i :| AtRun(q, i) && i + 2 <= |q|;
      AtRunShrinks(p, c, i);
    }
    if L2(p) {
      var i :| AtRun(p, i);
      AtRunExtends(p, c, i);
      assert AtRun(q, i) && i + 2 <= |q|;
    }
  }

  lemma L4Step(p: string, c: char)
    requires !IsWs(c)
    ensures L4(p + [c]) <==> L4(p) || (c == '.' && L3(p))
  {
    var q := p + [c];
    if L4(q) {
      var i, j :| AtRun(q, i) && i + 2 <= j < |q| && q[j] == '.';
      AtRunShrinks(p, c, i);
      if j < |p| {
        assert p[j] == q[j];
      } else {
        assert AtRun(p, i) && i + 2 <= |p|;
      }
    }
    if L4(p) {
      var i, j :| AtRun(p, i) && i + 2 <= j < |p| && p[j] == '.';
      AtRunExtends(p, c, i);
      assert q[j] == p[j];
    }
    if c == '.' && L3(p) {
      var i :| AtRun(p, i) && i + 2 <= |p|;
      AtRunExtends(p, c, i);
      assert q[|p|] == '.';
    }
  }

  lemma MatchStep(p: string, c: char)
    requires !IsWs(c)
    ensures EmailShape(p + [c]) <==> EmailShape(p) || L4(p)
  {
    var q := p + [c];
    if EmailShape(q) {
      var i, j :| 1 <= i && i + 2 <= j && j + 2 <= |q| && q[i] == '@' && q[j] == '.' && NonWsRange(q, i - 1, j + 2);
      if j + 2 <= |p| {
        MatchShrinks(p, c, i, j);
      } else {
        assert p[i] == q[i] && p[j] == q[j];
        assert AtRun(p, i) by {
          forall k | i - 1 <= k < |p| ensures !IsWs(p[k]) { assert q[k] == p[k]; }
        }
        assert AtRun(p, i) && i + 2 <= j < |p| && p[j] == '.';
      }
    }
    if EmailShape(p) {
      MatchKept(p, c);
    }
    if L4(p) {
      var i, j :| AtRun(p, i) && i + 2 <= j < |p| && p[j] == '.';
      AtRunExtends(p, c, i);
      assert q[i] == '@' && q[j] == '.';
      assert NonWsRange(q, i - 1, j + 2);
    }
  }

  /** One character of input moves the automaton exactly as `Step` says. */
  lemma LevelStep(p: string, c: char)
    ensures Level(p + [c]) == Step(Level(p), c)
  {
    var q := p + [c];
    Hierarchy(p);
    if IsWs(c) {
      MatchAfterWs(p, c);
      StatesAfterWs(p, c);
    } else {
      MatchKept'(p, c);
      MatchStep(p, c);
      L4Step(p, c);
      L3Step(p, c);
      L2Step(p, c);
      assert L1(q);
    }
  }

  lemma MatchKept'(p: string, c: char)
    ensures EmailShape(p) ==> EmailShape(p + [c])
  {
    if EmailShape(p) {
      MatchKept(p, c);
    }
  }

  /** The registration check: one pass, constant state. */
  method MatchesEmailPattern(s: string) returns (b: bool)
    ensures b <==> EmailShape(s)
  {
    var level := 0;
    var k := 0;
    assert Level(s[..0]) == 0;
    while k < |s|
      invariant 0 <= k <= |s|
      invariant level == Level(s[..k])
    {
      LevelStep(s[..k], s[k]);
      assert s[..k + 1] == s[..k] + [s[k]];
      level := Step(level, s[k]);
      k := k + 1;
    }
    assert s[..|s|] == s;
    b := level == 5;
  }
}

=== FILE: policy.dfy ===
/** The two tiers of authorisation in the generic router: the per-operation
    role check, and the row-level ownership check on update and delete. */
module Policy {
  import opened Common
  import opened Definitions

  /** `model.rbac[role] || []`. */
  function Permissions(m: ModelDefinition, role: string): seq<string> {
    if role in m.rbac then m.rbac[role] else []
  }

  /** The role's permission list names the operation or `all`. */
  predicate Permits(m: ModelDefinition, role: string, op: Op) {
    OpName(op) in Permissions(m, role) || "all" in Permissions(m, role)
  }

  /** `createRbacMiddleware(model, op)` applied to the attached principal. */
  function CheckRbac(m: ModelDefinition, user: Option<Principal>, op: Op): (r: Gate<Principal>)
    ensures (user.None? || user.value.role == "") <==> r == Stop(Reply(401, Message("Not authenticated")))
    ensures r.Pass? <==> user.Some? && user.value.role != "" && user.value.role in m.rbac &&
                         (OpName(op) in m.rbac[user.value.role] || "all" in m.rbac[user.value.role])
    ensures r.Pass? ==> r.value == user.value
    ensures r.Stop? && user.Some? && user.value.role != "" ==>
              r.response == Reply(403, Message("Forbidden: Insufficient permissions"))
  {
    if user.None? || user.value.role == "" then Stop(Reply(401, Message("Not authenticated")))
    else if Permits(m, user.value.role, op) then Pass(user.value)
    else Stop(Reply(403, Message("Forbidden: Insufficient permissions")))
  }

  /** A role the model does not list is refused every operation. */
  lemma UnlistedRoleForbidden(m: ModelDefinition, p: Principal, op: Op)
    requires p.role != "" && p.role !in m.rbac
    ensures CheckRbac(m, Some(p), op) == Stop(Reply(403, Message("Forbidden: Insufficient permissions")))
  {
  }

  /** `all` grants every operation. */
  lemma AllGrantsEverything(m: ModelDefinition, p: Principal)
    requires p.role != "" && p.role in m.rbac && "all" in m.rbac[p.role]
    ensures forall op :: CheckRbac(m, Some(p), op) == Pass(p)
  {
  }

  /** The owner column, when `ownerField` is set (non-empty). */
  function OwnerColumn(m: ModelDefinition): (r: Option<string>)
    ensures r.Some? <==> Truthy(m.ownerField)
    ensures r.Some? ==> r.value == m.ownerField.value && r.value != ""
  {
    if Truthy(m.ownerField) then m.ownerField else None
  }

  /** The ownership refusal: an owner column is set, the role is not `Admin`,
      and the row's owner value is not exactly the principal's id. */
  predicate OwnershipDenies(m: ModelDefinition, p: Principal, row: Row) {
    OwnerColumn(m).Some? && p.role != AdminRole &&
    Lookup(row, OwnerColumn(m).value) != Some(IdValue(p.id))
  }

  /** Admin always bypasses the ownership check, and so does everyone on a
      model without an owner column; otherwise the check passes exactly for
      the row's owner. */
  lemma OwnershipCases(m: ModelDefinition, p: Principal, row: Row)
    ensures p.role == AdminRole ==> !OwnershipDenies(m, p, row)
    ensures !Truthy(m.ownerField) ==> !OwnershipDenies(m, p, row)
    ensures Truthy(m.ownerField) && p.role != AdminRole ==>
              (!OwnershipDenies(m, p, row) <==> m.ownerField.value in row && row[m.ownerField.value] == IdValue(p.id))
  {
  }
}

=== FILE: registry.dfy ===
/** The route registry (`registerModelRoutes`): an append-only list of
    mounts, each a path and the definition its router was built from. A
    request is served by the first mount whose path matches, compared without
    regard to case as the HTTP framework does by default. */
module Registry {
  import opened Common
  import opened Definitions

  datatype Mount = Mount(path: string, model: ModelDefinition)

  /** `/api/` followed by the lower-cased model name; `tableName` plays no part. */
  function MountPath(m: ModelDefinition): string {
    "/api/" + Lower(m.name)
  }

  function RegisterModelRoutes(mounts: seq<Mount>, m: ModelDefinition): (r: seq<Mount>)
    ensures |r| == |mounts| + 1
    ensures r[..|mounts|] == mounts
    ensures r[|mounts|] == Mount("/api/" + Lower(m.name), m)
  {
    mounts + [Mount(MountPath(m), m)]
  }

  predicate PathMatches(mt: Mount, path: string) {
    Lower(mt.path) == Lower(path)
  }

  /** The definition whose router answers `path`: the earliest matching mount. */
  function Dispatch(mounts: seq<Mount>, path: string): (r: Option<ModelDefinition>)
    ensures r.None? <==> forall i :: 0 <= i < |mounts| ==> !PathMatches(mounts[i], path)
    ensures r.Some? ==> exists i :: 0 <= i < |mounts| && PathMatches(mounts[i], path) && mounts[i].model == r.value &&
                          forall j :: 0 <= j < i ==> !PathMatches(mounts[j], path)
  {
    if mounts == [] then None
    else if PathMatches(mounts[0], path) then Some(mounts[0].model)
    else
      assert forall i :: 1 <= i < |mounts| ==> mounts[i] == mounts[1..][i - 1];
      Dispatch(mounts[1..], path)
  }

  /** The first matching mount decides, so a later mount never changes who
      answers a path that was already served. */
  lemma {:induction false} DispatchAppend(mounts: seq<Mount>, extra: Mount, path: string)
    ensures Dispatch(mounts, path).Some? ==> Dispatch(mounts + [extra], path) == Dispatch(mounts, path)
    ensures Dispatch(mounts, path).None? ==>
              Dispatch(mounts + [extra], path) == (if PathMatches(extra, path) then Some(extra.model) else None)
  {
    if mounts != [] {
      assert (mounts + [extra])[1..] == mounts[1..] + [extra];
      DispatchAppend(mounts[1..], extra, path);
    }
  }

  /** Registering appends one mount and keeps every earlier one; after it, the
      model's path is served, by the new router only if no earlier mount had
      the same path. Re-registering a name therefore leaves the first
      definition answering. */
  lemma RegisterEffect(mounts: seq<Mount>, m: ModelDefinition)
    ensures Dispatch(RegisterModelRoutes(mounts, m), MountPath(m)).Some?
    ensures Dispatch(mounts, MountPath(m)).Some? ==>
              Dispatch(RegisterModelRoutes(mounts, m), MountPath(m)) == Dispatch(mounts, MountPath(m))
    ensures Dispatch(mounts, MountPath(m)).None? ==>
              Dispatch(RegisterModelRoutes(mounts, m), MountPath(m)) == Some(m)
    ensures forall path :: Dispatch(mounts, path).Some? ==>
              Dispatch(RegisterModelRoutes(mounts, m), path) == Dispatch(mounts, path)
  {
    DispatchAppend(mounts, Mount(MountPath(m), m), MountPath(m));
    forall path | Dispatch(mounts, path).Some?
      ensures Dispatch(RegisterModelRoutes(mounts, m), path) == Dispatch(mounts, path)
    {
      DispatchAppend(mounts, Mount(MountPath(m), m), path);
    }
  }

  /** Two definitions whose names differ only in case share a mount path. */
  lemma MountPathIgnoresCaseAndTableName(m: ModelDefinition, m': ModelDefinition)
    requires Lower(m.name) == Lower(m'.name)
    ensures MountPath(m) == MountPath(m')
    ensures MountPath(m.(tableName := m'.tableName)) == MountPath(m)
  {
  }
}

=== FILE: schema_service.dfy ===
/** The schema service: model definitions persisted as `<name>.json` files
    in the models directory, and reconciled against the live tables. The
    directory is a map from file name to what reading and parsing that file
    yields; the order `readdir` lists it in is a parameter. */
module SchemaService {
  import opened Common
  import opened Definitions
  import opened Storage
  import opened Ddl

  /** A file either parses to a definition or fails to read or parse. */
  datatype FileContent = Parsed(def: ModelDefinition) | Unreadable

  type ModelFiles = map<string, FileContent>

  function FileName(name: string): string {
    name + ".json"
  }

  /** `createTableFromDefinition`: the table is named after the lower-cased
      model name and carries the synthesised columns; no existence check, so
      a taken name fails. Column synthesis throws before any statement is
      sent. A relation or owner column whose target table does not exist yet
      fails only its foreign-key statement, after the table was created. */
  function CreateTableFromDefinition(db: Db, m: ModelDefinition): (r: Result<Db, Failure>)
    ensures r.Ok? <==> Columns(m).Ok? && DdlTableName(m) !in db.tables && DistinctNames(Columns(m).value) &&
                       RefsResolve(db, DdlTableName(m), Columns(m).value)
    ensures r.Ok? ==> r.value.tables == db.tables[DdlTableName(m) := Table(Columns(m).value, map[], 1)]
    ensures r.Err? ==>
              (r.error.db == db <==> !(Columns(m).Ok? && DdlTableName(m) !in db.tables && DistinctNames(Columns(m).value)))
    ensures r.Err? && r.error.db != db ==>
              r.error.db.tables.Keys == db.tables.Keys + {DdlTableName(m)} &&
              (forall n :: n in db.tables ==> r.error.db.tables[n] == db.tables[n]) &&
              r.error.db.tables[DdlTableName(m)].rows == map[] &&
              |r.error.db.tables[DdlTableName(m)].columns| == |Columns(m).value|
    ensures DbInv(db) && r.Ok? ==> DbInv(r.value)
    ensures DbInv(db) && r.Err? ==> DbInv(r.error.db)
  {
    match Columns(m)
    case Err(e) => Err(Failure(e, db))
    case Ok(cols) => CreateTable(db, DdlTableName(m), cols)
  }

  /** Two fields with a type case and the same name each get a column, so
      the table cannot be created, whatever the database holds. */
  lemma RepeatedFieldNameRefused(db: Db, m: ModelDefinition, i: int, j: int)
    requires Columns(m).Ok?
    requires 0 <= i < j < |m.fields|
    requires Mapped(m.fields[i].ftype) && Mapped(m.fields[j].ftype) && m.fields[i].name == m.fields[j].name
    ensures CreateTableFromDefinition(db, m).Err?
  {
    RepeatedNameNotDistinct(m, i, j);
  }

  /** Two same-named mapped fields give the table a repeated column name. */
  lemma RepeatedNameNotDistinct(m: ModelDefinition, i: int, j: int)
    requires Columns(m).Ok?
    requires 0 <= i < j < |m.fields|
    requires Mapped(m.fields[i].ftype) && Mapped(m.fields[j].ftype) && m.fields[i].name == m.fields[j].name
    ensures !DistinctNames(Columns(m).value)
  {
    var fcols := FieldColumns(m.fields).value;
    var a, b := RepeatedNameRepeatsColumn(m.fields, i, j);
    ColumnAfterId(m, a);
    ColumnAfterId(m, b);
  }

  /** The columns of two same-named mapped fields sit at two positions. */
  lemma RepeatedNameRepeatsColumn(fields: seq<Field>, i: int, j: int) returns (a: int, b: int)
    requires FieldColumns(fields).Ok?
    requires 0 <= i < j < |fields|
    requires Mapped(fields[i].ftype) && Mapped(fields[j].ftype) && fields[i].name == fields[j].name
    ensures 0 <= a < b < |FieldColumns(fields).value|
    ensures FieldColumns(fields).value[a].name == FieldColumns(fields).value[b].name
  {
    var cols := FieldColumns(fields).value;
    var idx := MappedIndexWitness(fields);
    assert CoversMapped(fields, idx) && Increasing(idx) && PointsAtColumns(fields, cols, idx);
    a :| 0 <= a < |idx| && idx[a] == i;
    b :| 0 <= b < |idx| && idx[b] == j;
    FieldColumnName(fields[i]);
    FieldColumnName(fields[j]);
  }

  /** `publishModel`: write (or overwrite) the file first, then create the
      table; a failed create leaves the file written. */
  function PublishModel(db: Db, files: ModelFiles, m: ModelDefinition): (r: (Result<Db, Failure>, ModelFiles))
    ensures r.1 == files[FileName(m.name) := Parsed(m)]
    ensures r.0 == CreateTableFromDefinition(db, m)
    ensures r.1.Keys == files.Keys + {FileName(m.name)} && forall f :: f in files && f != FileName(m.name) ==> r.1[f] == files[f]
    ensures r.0.Ok? ==> DdlTableName(m) in r.0.value.tables && DdlTableName(m) !in db.tables
    ensures r.0.Err? && r.0.error.db != db ==> DdlTableName(m) in r.0.error.db.tables && DdlTableName(m) !in db.tables
  {
    (CreateTableFromDefinition(db, m), files[FileName(m.name) := Parsed(m)])
  }

  /** `checkAndCreateTable`: create the table only when it is missing. */
  function CheckAndCreateTable(db: Db, m: ModelDefinition): (r: Result<Db, Failure>)
    ensures DdlTableName(m) in db.tables ==> r == Ok(db)
    ensures r.Ok? ==> DdlTableName(m) in r.value.tables
    ensures r.Ok? ==> forall n :: n in db.tables ==> n in r.value.tables && r.value.tables[n] == db.tables[n]
    ensures r.Ok? ==> r.value.tables.Keys == db.tables.Keys + {DdlTableName(m)}
    ensures r.Err? <==> DdlTableName(m) !in db.tables && CreateTableFromDefinition(db, m).Err?
    ensures DbInv(db) && r.Ok? ==> DbInv(r.value)
    ensures DbInv(db) && r.Err? ==> DbInv(r.error.db)
  {
    if DdlTableName(m) in db.tables then Ok(db) else CreateTableFromDefinition(db, m)
  }

  /** Reconciling twice is reconciling once. */
  lemma CheckAndCreateIdempotent(db: Db, m: ModelDefinition)
    requires CheckAndCreateTable(db, m).Ok?
    ensures CheckAndCreateTable(CheckAndCreateTable(db, m).value, m) == CheckAndCreateTable(db, m)
  {
  }

  /** Publishing is not guarded: once a model's table exists, publishing any
      definition with the same lower-cased name fails, yet its file is still
      overwritten with the new definition. */
  lemma RepublishFailsButOverwrites(db: Db, files: ModelFiles, m: ModelDefinition, m': ModelDefinition)
    requires PublishModel(db, files, m).0.Ok?
    requires Lower(m'.name) == Lower(m.name)
    ensures var (r1, files1) := PublishModel(db, files, m);
            var (r2, files2) := PublishModel(r1.value, files1, m');
            r2.Err? && files2[FileName(m'.name)] == Parsed(m')
  {
  }

  /** The reconciling path never fails on a table that exists, where publish does. */
  lemma ReconcileToleratesExisting(db: Db, m: ModelDefinition, files: ModelFiles)
    requires DdlTableName(m) in db.tables
    ensures CheckAndCreateTable(db, m) == Ok(db)
    ensures PublishModel(db, files, m).0.Err?
  {
  }

  predicate IsJson(file: string) {
    EndsWith(file, ".json")
  }

  /** A listed `.json` file that reads and parses. */
  predicate Loadable(files: ModelFiles, file: string) {
    file in files && files[file].Parsed?
  }

  /** The loop of `loadModels`: `None` when a read or parse throws. */
  function LoadFrom(files: ModelFiles, listing: seq<string>): (r: Option<seq<ModelDefinition>>)
    ensures r.None? <==> exists i :: 0 <= i < |listing| && IsJson(listing[i]) && !Loadable(files, listing[i])
  {
    if listing == [] then Some([])
    else
      var file := listing[0];
      assert forall i :: 1 <= i < |listing| ==> listing[i] == listing[1..][i - 1];
      if IsJson(file) then
        if !Loadable(files, file) then None
        else
          match LoadFrom(files, listing[1..])
          case None => None
          case Some(rest) => Some([files[file].def] + rest)
      else LoadFrom(files, listing[1..])
  }

  /** `readdir`'s answer: every file of the directory exactly once, in some order. */
  predicate ListingOf(files: ModelFiles, listing: seq<string>) {
    multiset(listing) == multiset(files.Keys)
  }

  /** `loadModels`: every definition, or nothing at all if one file fails. */
  function LoadModels(files: ModelFiles, listing: seq<string>): (r: seq<ModelDefinition>)
    requires ListingOf(files, listing)
    ensures forall d :: d in r ==> exists f :: f in files && IsJson(f) && files[f] == Parsed(d)
  {
    match LoadFrom(files, listing)
    case None => []
    case Some(models) =>
      LoadedFromDirectory(files, listing);
      models
  }

  /** `d` is the parsed content of a listed `.json` file. */
  predicate FromListedJson(files: ModelFiles, listing: seq<string>, d: ModelDefinition) {
    exists i :: 0 <= i < |listing| && IsJson(listing[i]) && Loadable(files, listing[i]) && d == files[listing[i]].def
  }

  /** Every definition the loop returns is the parsed content of a listed
      `.json` file. */
  lemma {:induction false} LoadFromProvenance(files: ModelFiles, listing: seq<string>)
    requires LoadFrom(files, listing).Some?
    ensures forall d :: d in LoadFrom(files, listing).value ==> FromListedJson(files, listing, d)
  {
    if listing != [] {
      var rest := listing[1..];
      assert forall i :: 1 <= i < |listing| ==> listing[i] == rest[i - 1];
      LoadFromProvenance(files, rest);
      forall d | FromListedJson(files, rest, d) ensures FromListedJson(files, listing, d) {
        var j :| 0 <= j < |rest| && IsJson(rest[j]) && Loadable(files, rest[j]) && d == files[rest[j]].def;
        assert listing[j + 1] == rest[j];
      }
      if IsJson(listing[0]) {
        assert FromListedJson(files, listing, files[listing[0]].def);
      }
    }
  }

  /** Every definition the loop returns is the content of one of the
      directory's `.json` files. */
  lemma LoadedFromDirectory(files: ModelFiles, listing: seq<string>)
    requires LoadFrom(files, listing).Some?
    ensures forall d :: d in LoadFrom(files, listing).value ==> exists f :: f in files && IsJson(f) && files[f] == Parsed(d)
  {
    LoadFromProvenance(files, listing);
    forall d | d in LoadFrom(files, listing).value ensures exists f :: f in files && IsJson(f) && files[f] == Parsed(d) {
      assert FromListedJson(files, listing, d);
      var i :| 0 <= i < |listing| && IsJson(listing[i]) && Loadable(files, listing[i]) && d == files[listing[i]].def;
      assert files[listing[i]] == Parsed(d);
    }
  }

  /** The listed `.json` files, in listing order. */
  function JsonFiles(listing: seq<string>): (r: seq<string>)
    ensures forall f :: f in r <==> f in listing && IsJson(f)
  {
    if listing == [] then []
    else if IsJson(listing[0]) then [listing[0]] + JsonFiles(listing[1..])
    else JsonFiles(listing[1..])
  }

  /** The loop returns exactly the parsed contents of the `.json` files in
      listing order when all of them load. */
  lemma {:induction false} LoadFromContents(files: ModelFiles, listing: seq<string>)
    requires forall i :: 0 <= i < |listing| && IsJson(listing[i]) ==> Loadable(files, listing[i])
    ensures LoadFrom(files, listing).Some?
    ensures var js := JsonFiles(listing);
            |LoadFrom(files, listing).value| == |js| &&
            forall k :: 0 <= k < |js| ==> Loadable(files, js[k]) && LoadFrom(files, listing).value[k] == files[js[k]].def
  {
    if listing != [] {
      assert forall i :: 1 <= i < |listing| ==> listing[i] == listing[1..][i - 1];
      LoadFromContents(files, listing[1..]);
    }
  }

  /** `loadModels` returns exactly the parsed contents of the directory's
      `.json` files in listing order when all of them load, and `[]` as soon
      as one does not. */
  lemma LoadModelsContents(files: ModelFiles, listing: seq<string>)
    requires ListingOf(files, listing)
    ensures (forall f :: f in files && IsJson(f) ==> files[f].Parsed?) ==>
              var js := JsonFiles(listing);
              |LoadModels(files, listing)| == |js| &&
              forall k :: 0 <= k < |js| ==> Loadable(files, js[k]) && LoadModels(files, listing)[k] == files[js[k]].def
    ensures (exists f :: f in files && IsJson(f) && files[f].Unreadable?) ==> LoadModels(files, listing) == []
  {
    assert forall f :: f in listing <==> f in files by {
      forall f ensures f in listing <==> f in files {
        assert f in listing <==> f in multiset(listing);
        assert f in files <==> f in multiset(files.Keys);
      }
    }
    if forall f :: f in files && IsJson(f) ==> files[f].Parsed? {
      LoadFromContents(files, listing);
    }
    if exists f :: f in files && IsJson(f) && files[f].Unreadable? {
      var f :| f in files && IsJson(f) && files[f].Unreadable?;
      assert f in listing;
    }
  }

  /** When every definition reads, each `.json` file's definition is loaded. */
  lemma LoadedIncludes(files: ModelFiles, listing: seq<string>, f: string)
    requires ListingOf(files, listing)
    requires forall g :: g in files && IsJson(g) ==> files[g].Parsed?
    requires f in files && IsJson(f)
    ensures exists k :: 0 <= k < |LoadModels(files, listing)| && LoadModels(files, listing)[k] == files[f].def
  {
    LoadModelsContents(files, listing);
    assert f in multiset(files.Keys);
    var js := JsonFiles(listing);
    assert f in js;
    var k :| 0 <= k < |js| && js[k] == f;
    assert LoadModels(files, listing)[k] == files[f].def;
  }

  /** A single unreadable `.json` file hides every other definition. */
  lemma OneBadFileEmptiesLoad(files: ModelFiles, listing: seq<string>, bad: string)
    requires ListingOf(files, listing)
    requires bad in files && IsJson(bad) && files[bad].Unreadable?
    ensures LoadModels(files, listing) == []
  {
    LoadModelsContents(files, listing);
  }

  /** Files that do not end in `.json` are never read. */
  lemma {:induction false} NonJsonIgnored(files: ModelFiles, files': ModelFiles, listing: seq<string>)
    requires forall f :: f in listing && IsJson(f) ==> (f in files <==> f in files') && (f in files ==> files[f] == files'[f])
    ensures LoadFrom(files, listing) == LoadFrom(files', listing)
    ensures ListingOf(files, listing) && ListingOf(files', listing) ==> LoadModels(files, listing) == LoadModels(files', listing)
  {
    if listing != [] {
      NonJsonIgnored(files, files', listing[1..]);
    }
  }
}

=== FILE: storage.dfy ===
/** An abstract relational store: named tables, each with its column list,
    its rows keyed by the generated id, and the next id its sequence will
    hand out. Only the behaviour the server's outcomes depend on is kept:
    a table name is taken once, a table's columns must have distinct names,
    a table another table references cannot be dropped, ids are fresh. */
module Storage {
  import opened Common
  import opened Definitions

  datatype ColumnType = Increments | VarChar | Integer | Boolean | Timestamp

  datatype ColumnDefault = NoDefault | DefaultFalse | DefaultNow

  /** A foreign key `REFERENCES table(column) ON DELETE onDelete`. */
  datatype ForeignKey = ForeignKey(table: string, column: string, onDelete: string)

  datatype Column = Column(
    name: string,
    ctype: ColumnType,
    unsigned: bool,
    primary: bool,
    notNull: bool,
    default: ColumnDefault,
    references: Option<ForeignKey>)

  datatype Table = Table(columns: seq<Column>, rows: map<int, Row>, nextId: int)

  datatype Db = Db(tables: map<string, Table>)

  /** Every stored id was handed out by the sequence, which starts at 1. */
  predicate TableInv(t: Table) {
    t.nextId >= 1 && forall id :: id in t.rows ==> 1 <= id < t.nextId
  }

  /** Each foreign key of `cols` names an existing table or the table being
      defined (a self-reference). */
  predicate RefsResolve(db: Db, name: string, cols: seq<Column>) {
    forall i :: 0 <= i < |cols| && cols[i].references.Some? ==>
      cols[i].references.value.table in db.tables || cols[i].references.value.table == name
  }

  /** Every table's ids come from its sequence, and every foreign key points
      at a table that exists. */
  predicate DbInv(db: Db) {
    && (forall n :: n in db.tables ==> TableInv(db.tables[n]))
    && (forall n :: n in db.tables ==> RefsResolve(db, n, db.tables[n].columns))
  }

  predicate DistinctNames(cols: seq<Column>) {
    forall i, j :: 0 <= i < j < |cols| ==> cols[i].name != cols[j].name
  }

  /** A refused schema change: the database error and the database as the
      statements that did run left it. */
  datatype Failure = Failure(msg: string, db: Db)

  /** A column's foreign key, if any, names an existing table or `name`. */
  predicate KeyResolves(db: Db, name: string, c: Column) {
    c.references.Some? ==> c.references.value.table in db.tables || c.references.value.table == name
  }

  /** The position of the first foreign key that does not resolve, or the
      length when every one does. */
  function FirstDangling(db: Db, name: string, cols: seq<Column>): (k: nat)
    ensures k <= |cols|
    ensures forall i :: 0 <= i < k ==> KeyResolves(db, name, cols[i])
    ensures k < |cols| ==> !KeyResolves(db, name, cols[k])
    ensures k == |cols| <==> RefsResolve(db, name, cols)
  {
    if cols == [] then 0
    else if !KeyResolves(db, name, cols[0]) then 0
    else
      var k := FirstDangling(db, name, cols[1..]);
      assert forall i :: 1 <= i < |cols| ==> cols[i] == cols[1..][i - 1];
      1 + k
  }

  /** The columns with every foreign key from position `k` on removed. */
  function KeysBefore(cols: seq<Column>, k: nat): (r: seq<Column>)
    ensures |r| == |cols|
    ensures forall i :: 0 <= i < |cols| ==> r[i] == if i < k then cols[i] else cols[i].(references := None)
  {
    seq(|cols|, i requires 0 <= i < |cols| => if i < k then cols[i] else cols[i].(references := None))
  }

  /** `CREATE TABLE` followed by one `ALTER TABLE ... ADD CONSTRAINT ...
      FOREIGN KEY` per foreign key, in column order and outside a
      transaction. A taken name or a repeated column name refuses the create
      itself, leaving the database as it was. A foreign key to a missing table
      refuses only its own ALTER: the table stays, with the keys before it
      and none from it on. */
  function CreateTable(db: Db, name: string, cols: seq<Column>): (r: Result<Db, Failure>)
    ensures r.Ok? <==> name !in db.tables && DistinctNames(cols) && RefsResolve(db, name, cols)
    ensures r.Ok? ==> r.value.tables == db.tables[name := Table(cols, map[], 1)]
    ensures r.Err? && (name in db.tables || !DistinctNames(cols)) ==> r.error.db == db
    ensures r.Err? && name !in db.tables && DistinctNames(cols) ==>
              var k := FirstDangling(db, name, cols);
              k < |cols| &&
              r.error.msg == "relation \"" + cols[k].references.value.table + "\" does not exist" &&
              r.error.db.tables == db.tables[name := Table(KeysBefore(cols, k), map[], 1)]
    ensures DbInv(db) && r.Ok? ==> DbInv(r.value)
    ensures DbInv(db) && r.Err? ==> DbInv(r.error.db)
  {
    if name in db.tables then Err(Failure("relation \"" + name + "\" already exists", db))
    else if !DistinctNames(cols) then Err(Failure("column specified more than once", db))
    else
      var k := FirstDangling(db, name, cols);
      var cols' := KeysBefore(cols, k);
      var r := Db(db.tables[name := Table(cols', map[], 1)]);
      KeysBeforeResolve(db, name, cols);
      AddTableKeepsInv(db, name, cols');
      if k == |cols| then
        assert cols' == cols;
        Ok(r)
      else
        Err(Failure("relation \"" + cols[k].references.value.table + "\" does not exist", r))
  }

  /** The keys kept before the first dangling one all resolve. */
  lemma KeysBeforeResolve(db: Db, name: string, cols: seq<Column>)
    ensures RefsResolve(db, name, KeysBefore(cols, FirstDangling(db, name, cols)))
  {
    var k := FirstDangling(db, name, cols);
    var cols' := KeysBefore(cols, k);
    forall i | 0 <= i < |cols'| && cols'[i].references.Some?
      ensures cols'[i].references.value.table in db.tables || cols'[i].references.value.table == name
    {
      assert i < k && KeyResolves(db, name, cols[i]);
    }
  }

  /** Adding a fresh, empty table whose keys resolve keeps the invariant. */
  lemma AddTableKeepsInv(db: Db, name: string, cols: seq<Column>)
    requires name !in db.tables && RefsResolve(db, name, cols)
    ensures DbInv(db) ==> DbInv(Db(db.tables[name := Table(cols, map[], 1)]))
  {
    var r := Db(db.tables[name := Table(cols, map[], 1)]);
    forall n | n in db.tables && RefsResolve(db, n, db.tables[n].columns)
      ensures RefsResolve(r, n, r.tables[n].columns)
    {
    }
  }

  /** Some other table holds a foreign key into `name`. */
  predicate Referenced(db: Db, name: string) {
    exists other, i :: other in db.tables && other != name && 0 <= i < |db.tables[other].columns| &&
      db.tables[other].columns[i].references.Some? && db.tables[other].columns[i].references.value.table == name
  }

  /** `DROP TABLE IF EXISTS`: a missing table is a no-op; a table another
      table references cannot be dropped. */
  function DropTableIfExists(db: Db, name: string): (r: Result<Db, string>)
    ensures r.Err? <==> name in db.tables && Referenced(db, name)
    ensures r.Ok? ==> r.value.tables == db.tables - {name}
    ensures DbInv(db) && r.Ok? ==> DbInv(r.value)
  {
    if name in db.tables && Referenced(db, name) then
      Err("cannot drop table " + name + " because other objects depend on it")
    else Ok(Db(db.tables - {name}))
  }

  /** An insert takes the next id from the sequence. */
  function Insert(t: Table, row: Row): (r: (Table, int))
    requires TableInv(t)
    ensures r.1 !in t.rows && r.1 >= 1
    ensures r.0.rows == t.rows[r.1 := row] && r.0.columns == t.columns
    ensures TableInv(r.0)
  {
    (Table(t.columns, t.rows[t.nextId := row], t.nextId + 1), t.nextId)
  }

  /** `update(body)` on the row with `id`: the body's values overwrite. */
  function UpdateRow(t: Table, id: int, body: Payload): (r: Table)
    requires id in t.rows
    ensures r.rows.Keys == t.rows.Keys && r.columns == t.columns && r.nextId == t.nextId
    ensures forall k :: k in r.rows && k != id ==> r.rows[k] == t.rows[k]
    ensures forall c :: c in r.rows[id] <==> c in t.rows[id] || c in body
    ensures forall c :: c in body ==> r.rows[id][c] == body[c]
    ensures forall c :: c in t.rows[id] && c !in body ==> r.rows[id][c] == t.rows[id][c]
    ensures TableInv(t) ==> TableInv(r)
  {
    Table(t.columns, t.rows[id := t.rows[id] + body], t.nextId)
  }

  function DeleteRow(t: Table, id: int): (r: Table)
    ensures r.rows.Keys == t.rows.Keys - {id}
    ensures forall k :: k in r.rows ==> r.rows[k] == t.rows[k]
    ensures r.columns == t.columns && r.nextId == t.nextId
    ensures TableInv(t) ==> TableInv(r)
  {
    Table(t.columns, t.rows - {id}, t.nextId)
  }

  /** Replace a table's contents, keeping its columns. */
  function Put(db: Db, name: string, t: Table): (r: Db)
    ensures r.tables == db.tables[name := t]
    ensures DbInv(db) && TableInv(t) && name in db.tables && t.columns == db.tables[name].columns ==> DbInv(r)
  {
    Db(db.tables[name := t])
  }
}

=== FILE: validation.dfy ===
/** The payload validator of the generic router: one pass over the model's
    fields in declaration order, returning the message of the first field that
    fails, or nothing when every field passes. */
module Validation {
  import opened Common
  import opened Definitions

  /** What the validator learns from JavaScript's numeric coercions, which the
      model does not define: `number(v)` holds when `Number(v)` is not NaN and
      `float(v)` holds when `parseFloat(v)` is not NaN. */
  datatype Coercion = Coercion(number: Value -> bool, float: Value -> bool)

  /** `undefined`, `null` and `""`: the values the validator treats as absent. */
  predicate IsEmpty(v: Option<Value>) {
    v.None? || v == Some(Null) || v == Some(Str(""))
  }

  function Quoted(name: string): string {
    "Field \"" + name + "\" "
  }

  function RequiredMessage(name: string): string {
    Quoted(name) + "is required."
  }

  function NumberMessage(name: string): string {
    Quoted(name) + "must be a valid number."
  }

  function FloatMessage(name: string): string {
    Quoted(name) + "must be a valid float (e.g., 12.34)."
  }

  function BooleanMessage(name: string): string {
    Quoted(name) + "must be a boolean (true or false)."
  }

  /** The values a `boolean` field accepts. */
  predicate BooleanLike(v: Value) {
    v.Bool? || v == Str("true") || v == Str("false")
  }

  /** The type check applied to a present value. */
  function TypeCheck(f: Field, v: Value, co: Coercion): Option<string> {
    match f.ftype
    case NumberType => if !co.number(v) then Some(NumberMessage(f.name)) else None
    case FloatType => if !co.float(v) then Some(FloatMessage(f.name)) else None
    case BooleanType => if !BooleanLike(v) then Some(BooleanMessage(f.name)) else None
    case _ => None
  }

  /** One iteration of the validation loop, written as the source branches:
      the required check with its boolean exemption, then the type check. */
  function CheckField(f: Field, data: Payload, co: Coercion): (r: Option<string>)
    ensures f.required && IsEmpty(Lookup(data, f.name)) ==> r == Some(RequiredMessage(f.name))
    ensures !f.required && IsEmpty(Lookup(data, f.name)) ==> r.None?
    ensures f.ftype == NumberType && !IsEmpty(Lookup(data, f.name)) ==>
              (r.Some? <==> !co.number(data[f.name])) && (r.Some? ==> r.value == NumberMessage(f.name))
    ensures f.ftype == FloatType && !IsEmpty(Lookup(data, f.name)) ==>
              (r.Some? <==> !co.float(data[f.name])) && (r.Some? ==> r.value == FloatMessage(f.name))
    ensures f.ftype == BooleanType && !IsEmpty(Lookup(data, f.name)) ==>
              (r.Some? <==> !BooleanLike(data[f.name])) && (r.Some? ==> r.value == BooleanMessage(f.name))
    ensures (f.ftype.StringType? || f.ftype.RelationType? || f.ftype.OtherType?) ==>
              (r.Some? <==> f.required && IsEmpty(Lookup(data, f.name)))
  {
    var value := Lookup(data, f.name);
    if f.required && IsEmpty(value) && !(f.ftype == BooleanType && value == Some(Bool(false))) then
      Some(RequiredMessage(f.name))
    else if !IsEmpty(value) then
      TypeCheck(f, value.value, co)
    else
      None
  }

  /** `validateData`: the first failing field's message, or `None`. */
  function ValidateData(fields: seq<Field>, data: Payload, co: Coercion): (r: Option<string>)
    ensures r.None? <==> forall i :: 0 <= i < |fields| ==> CheckField(fields[i], data, co).None?
    ensures r.Some? ==> exists i :: 0 <= i < |fields| && CheckField(fields[i], data, co) == r &&
                          forall j :: 0 <= j < i ==> CheckField(fields[j], data, co).None?
  {
    if fields == [] then None
    else
      match CheckField(fields[0], data, co)
      case Some(msg) => Some(msg)
      case None =>
        var rest := ValidateData(fields[1..], data, co);
        assert forall i :: 1 <= i < |fields| ==> fields[i] == fields[1..][i - 1];
        rest
  }

  function Validate(m: ModelDefinition, data: Payload, co: Coercion): Option<string> {
    ValidateData(m.fields, data, co)
  }

  /** A declarative reading of an acceptable payload: every required field is
      present and every present value passes its type's test. */
  predicate FieldAccepts(f: Field, data: Payload, co: Coercion) {
    var v := Lookup(data, f.name);
    && (f.required ==> !IsEmpty(v))
    && (!IsEmpty(v) ==> match f.ftype
                        case NumberType => co.number(v.value)
                        case FloatType => co.float(v.value)
                        case BooleanType => BooleanLike(v.value)
                        case _ => true)
  }

  predicate Accepts(fields: seq<Field>, data: Payload, co: Coercion) {
    forall i :: 0 <= i < |fields| ==> FieldAccepts(fields[i], data, co)
  }

  /** The validator agrees with the declarative reading, in both directions. */
  lemma ValidateMatchesAccepts(fields: seq<Field>, data: Payload, co: Coercion)
    ensures ValidateData(fields, data, co).None? <==> Accepts(fields, data, co)
  {
    forall i | 0 <= i < |fields|
      ensures CheckField(fields[i], data, co).None? <==> FieldAccepts(fields[i], data, co)
    {
      var f := fields[i];
      match f.ftype
      case NumberType =>
      case FloatType =>
      case BooleanType =>
      case StringType =>
      case RelationType =>
      case OtherType(_) =>
    }
  }

  /** The required-boolean exemption (`value === false` inside the emptiness
      test) can never be taken: `false` is not an empty value. */
  lemma BooleanExemptionUnreachable(v: Option<Value>)
    ensures !(IsEmpty(v) && v == Some(Bool(false)))
  {
  }

  /** `false` never triggers the required check, whatever the field's type. */
  lemma FalseNeverRequired(f: Field, data: Payload, co: Coercion)
    requires Lookup(data, f.name) == Some(Bool(false))
    ensures CheckField(f, data, co) != Some(RequiredMessage(f.name))
    ensures f.ftype == BooleanType ==> CheckField(f, data, co).None?
  {
    var q := Quoted(f.name);
    var r := CheckField(f, data, co);
    if r.Some? {
      assert r.value == TypeCheck(f, Bool(false), co).value;
      assert r.value[|q|] != 'i';
      assert RequiredMessage(f.name)[|q|] == 'i';
    }
  }

  /** Two payloads that agree on every declared field name get the same
      verdict: keys the model does not declare never matter. */
  lemma {:induction false} UndeclaredKeysIgnored(fields: seq<Field>, data: Payload, data': Payload, co: Coercion)
    requires forall i :: 0 <= i < |fields| ==> Lookup(data, fields[i].name) == Lookup(data', fields[i].name)
    ensures ValidateData(fields, data, co) == ValidateData(fields, data', co)
  {
    if fields != [] {
      var f := fields[0];
      assert Lookup(data, f.name) == Lookup(data', f.name);
      assert CheckField(f, data, co) == CheckField(f, data', co);
      UndeclaredKeysIgnored(fields[1..], data, data', co);
    }
  }

  /** The verdict is that of the payload restricted to the declared names. */
  lemma VerdictOnDeclaredKeys(fields: seq<Field>, data: Payload, co: Coercion)
    ensures ValidateData(fields, data, co) ==
            ValidateData(fields, map k | k in data && (exists i :: 0 <= i < |fields| && fields[i].name == k) :: data[k], co)
  {
    var restricted := map k | k in data && (exists i :: 0 <= i < |fields| && fields[i].name == k) :: data[k];
    forall i | 0 <= i < |fields|
      ensures Lookup(data, fields[i].name) == Lookup(restricted, fields[i].name)
    {
    }
    UndeclaredKeysIgnored(fields, data, restricted, co);
  }
}
